=== FILE: README.md ===
# xAnimate frame pipeline in Dafny

xAnimate turns one or more xarray datasets into an animated image. It renders one
frame per keyframe along an animation dimension. Each frame is saved as a PNG in a
temporary directory next to the output file. The frames are read back in order and
encoded into one animation, and the directory is removed. This project models the
bookkeeping of that pipeline in two front ends:

- `xAnimate.make_animation`: several datasets, a consistency check, and a bare
  `try`/`except` that removes the temporary directory.
- The older `ezanimate.make_animation`: one dataset and no exception handling.

Rendering, PNG writing, decoding and encoding belong to matplotlib and imageio.
They are modelled as steps that add, read or remove entries of an abstract file
system, and that may raise. Which of them raise in a run is a parameter: the
`Env` record in `files.dfy`.

Modules, one per file:

| file | module | what it holds |
|---|---|---|
| `common.dfy` | `Common` | `Option`, `Result`, the exceptions, and how a call completes |
| `decimal.dfy` | `Decimal` | Python's `str()` and `zfill` on integers, string order, reading digits back |
| `keyframes.dfy` | `Keyframes` | the keyframe count `ceil(n_anim / index_stride)` and the index each keyframe selects |
| `datasets.dfy` | `Datasets` | datasets as dimension-size maps, `check_data`, the per-keyframe `data_ii` loop |
| `files.dfy` | `Files` | the file system as a class over `map<Path, Entry>`: `mkdir`, `rmtree`, `savefig`, `imread`, `mimsave` |
| `frame_store.dfy` | `FrameStore` | the temporary directory's name and the frame file names |
| `compile.dfy` | `Compile` | `ms2fps` and `compile_images_into_animation` |
| `pipeline.dfy` | `Pipeline` | what the keyframe loop leaves on disk, where it stops, and what compiling a complete set of frames yields |
| `xanimate.dfy` | `XAnimate` | `_try_make_animation` and `make_animation` of xAnimate |
| `ezanimate.dfy` | `EzAnimate` | `_index_xarray`, `make_animation` and `compile_images_into_animation` of ezanimate |

Modelling choices:

- **Loop outcome.** What the keyframe loop does is summarised by the sequence of
  figures the frame function returns. From that sequence:
  - `FirstFailure` is the first keyframe whose rendering or saving raises.
  - `Persisted` is the state after the first `k` frames have been saved.
  - `Produced` is the outcome of a whole run, stated without the file system.

  `CompiledPersisted` proves that compiling the frame list after a complete loop
  gives exactly `Produced`.
- **What the `except` clause of `make_animation` does.** The comment at
  `src/xAnimate/_make_animation.py:62` says the clause makes sure the temporary
  directory is removed when there is a problem. The model follows the code at
  lines 61-63, and that code does more and less than the comment says:
  - **Exceptions are swallowed.** The bare `except` catches every exception of
    the run and does not re-raise it. `XAnimate.MakeAnimation` therefore returns
    normally after any failure inside `_try_make_animation`.
  - **The directory exists when the data disagree.** `check_data` runs inside
    `_try_make_animation`, after `os.mkdir`. A mismatch is detected only once
    the directory exists, and the `except` then removes it.
  - **A failed `mkdir` makes the cleanup raise.** When `os.mkdir` raises for
    any reason other than the name being taken, the `except` calls `rmtree` on
    a path that was never created. That call raises `FileNotFoundError`, which
    reaches the caller. When the name is taken by a file, `rmtree` raises
    `NotADirectoryError` instead.
  - **A name collision deletes a directory the run did not create.** When
    `mkdir` finds an existing directory of that name, the `except` removes that
    directory and everything in it.
  - **ezanimate leaves its directory behind.** It has no `except`. After
    `mkdir`, any failure leaves the temporary directory in place, with the
    frames saved so far.
- **ezanimate's `_index_xarray`.** Its body reads `ii` and `index_stride`, which
  are neither parameters nor locals. The model looks them up in the module's global
  namespace, `globals`. The module itself binds neither name, so with its own
  namespace the first keyframe raises `NameError` (`FirstKeyframeRaisesNameError`).
- **Output path.** The output path is `outDir + "/" + stem + suffix`. `stem` and
  `suffix` have the shape `Path.stem` and `Path.suffix` give. This is what lets
  `OutputOutsideTmpDir` prove that removing the temporary directory never removes
  the animation.

## Model

| member | source | states |
|---|---|---|
| `Decimal.NatToStr` | src/xAnimate/_make_animation.py:85 | `str(n)` is a non-empty string of digits whose length `k` satisfies `n < 10^k` and, when `k > 1`, `10^(k-1) <= n` (one digit for 0) |
| `Decimal.DigitCount` | src/xAnimate/_make_animation.py:85 | a number in `[10^(k-1), 10^k)` has exactly `k` digits |
| `Decimal.NoWiderThan` | src/xAnimate/_make_animation.py:104 | no index up to `n` has more digits than `n` |
| `Decimal.IntToStr` | src/xAnimate/_make_animation.py:85 | `str(i)` is non-empty; for `i >= 0` it is all digits and reads back as `i`; for `i < 0` it is a minus sign followed by the digits of `-i` |
| `Decimal.ZFill` | src/xAnimate/_make_animation.py:104 | a string at least `width` long is returned unchanged; a shorter one is padded to exactly `width` characters with zeros placed after a leading sign, keeping the original characters at the end |
| `Decimal.NatToStrRoundTrip` | src/xAnimate/_make_animation.py:55 | reading the digits of `str(n)` back gives `n` |
| `Decimal.FixedRoundTrip` | src/xAnimate/_make_animation.py:104 | a number below `10^w` written with `w` zero-padded digits reads back as itself |
| `Decimal.FixedZero` | src/xAnimate/_make_animation.py:104 | zero padded to `w` digits is `w` zeros |
| `Decimal.PaddedDigits` | src/xAnimate/_make_animation.py:104 | zeros followed by `str(n)`, `w` characters in all, is the `w`-digit numeral of `n` |
| `Decimal.ZFillIsFixed` | src/xAnimate/_make_animation.py:104 | `str(n).zfill(w)` is the `w`-digit numeral of `n` whenever `str(n)` is at most `w` long |
| `Decimal.LexLessIrreflexive` | src/xAnimate/_make_animation.py:105 | no string sorts before itself |
| `Decimal.LexLessAsymmetric` | src/xAnimate/_make_animation.py:105 | two strings never sort before each other |
| `Decimal.LexLessAppend` | src/xAnimate/_make_animation.py:105 | appending suffixes to two equal-length strings keeps their order |
| `Decimal.LexLessPrefix` | src/xAnimate/_make_animation.py:105 | a common prefix neither creates nor hides an order, in both directions |
| `Decimal.FixedOrder` | src/xAnimate/_make_animation.py:104 | for `i < j < 10^w`, the `w`-digit numeral of `i` sorts before that of `j` |
| `Keyframes.KeyframeCount` | src/xAnimate/_make_animation.py:82 | a zero stride raises ZeroDivisionError and no other stride does; a positive stride gives a non-negative count that is zero exactly when `n_anim` is; a negative stride gives a count of at most zero |
| `Keyframes.Iterations` | src/xAnimate/_make_animation.py:89 | `range(n_keyframes)` runs no iteration for a count of at most zero, and exactly `n_keyframes` otherwise |
| `Keyframes.KeyframeIndex` | src/xAnimate/_make_animation.py:98 | keyframe 0 selects index 0; for a positive stride, keyframe `ii` selects the non-negative multiple of the stride whose quotient is `ii` |
| `Keyframes.CountIsCeiling` | src/xAnimate/_make_animation.py:82 | for a positive stride the count is the least `c` with `c * stride >= n_anim` |
| `Keyframes.KeyframeInRange` | src/xAnimate/_make_animation.py:89-98 | for a positive stride, keyframe `ii` exists exactly when `ii * stride < n_anim` |
| `Keyframes.IndicesIncrease` | src/xAnimate/_make_animation.py:98 | later keyframes select strictly larger indices |
| `Keyframes.IndicesAreTheMultiples` | src/xAnimate/_make_animation.py:82-98 | for a positive stride, the selected indices are strictly increasing, are all multiples of the stride below `n_anim`, and include every such multiple |
| `Keyframes.NegativeStrideRendersNothing` | src/xAnimate/_make_animation.py:82-89 | a negative stride gives a count for which `range` yields no keyframe |
| `Keyframes.StrideFiveOverTwentyThree` | src/xAnimate/_make_animation.py:82-98 | 23 steps at stride 5 give keyframes at 0, 5, 10, 15, 20 |
| `Datasets.AsList` | src/xAnimate/_make_animation.py:75-76 | a single dataset becomes a one-element list holding it; a list is kept as it is |
| `Datasets.CheckVerdict` | src/xAnimate/_make_animation.py:10-19 | the check passes exactly when the list is non-empty, `data[0]` has the dimension and every dataset with the dimension has `data[0]`'s extent; any exception is IndexError, KeyError for the dimension, or the mismatch error |
| `Datasets.CheckData` | src/xAnimate/_make_animation.py:10-19 | IndexError on an empty list; KeyError when `data[0]` lacks the dimension; otherwise it returns normally exactly when every dataset with the dimension has the extent of `data[0]`, and raises the mismatch error when not |
| `Datasets.MismatchIffTwoDisagree` | src/xAnimate/_make_animation.py:10-19 | when `data[0]` has the dimension, the check raises the mismatch error exactly when two datasets that have the dimension disagree on its extent |
| `Datasets.DatasetsWithoutDimIgnored` | src/xAnimate/_make_animation.py:16-19 | appending a dataset without the dimension to a non-empty list never changes the verdict |
| `Datasets.FrameSlices` | src/xAnimate/_make_animation.py:95-100 | one selection per dataset, in input order; a selection is indexed exactly when its dataset has the dimension, and then at keyframe `ii`'s index `ii * stride` |
| `Datasets.SelectKeyframe` | src/xAnimate/_make_animation.py:95-100 | `data_ii` has one entry per dataset, in input order; an entry is indexed at `ii * stride` exactly when its dataset has the dimension |
| `Datasets.SelectedIndexInRange` | src/xAnimate/_make_animation.py:81-98 | after a passed check, every selected index lies inside the dimension of the dataset it selects from |
| `Datasets.PassedThroughUnchanged` | src/xAnimate/_make_animation.py:96-100 | a dataset without the dimension reaches every keyframe in the same form |
| `Files.RemoveTree` | src/xAnimate/_make_animation.py:114 | after removal exactly the entries outside the directory's tree remain, with their contents unchanged |
| `Files.RemoveTreeUpdateInside` | src/xAnimate/_make_animation.py:106 | a file written inside the directory does not survive its removal |
| `Files.RemoveTreeUpdateOutside` | src/xAnimate/_make_animation.py:112 | a file written outside the directory survives its removal |
| `Files.FileSystem.Mkdir` | src/xAnimate/_make_animation.py:57 | raises on an existing path or a refusal, leaving the state unchanged; otherwise adds the directory and nothing else |
| `Files.FileSystem.Rmtree` | src/xAnimate/_make_animation.py:63 | raises on a missing path or a file, leaving the state unchanged; otherwise removes the directory's whole tree and nothing else |
| `Files.FileSystem.SaveFig` | src/xAnimate/_make_animation.py:106-108 | writes the figure at the path and nothing else, or raises and writes nothing |
| `Files.ReadFrame` | src/xAnimate/_make_animation.py:138 | reading a path succeeds exactly when a PNG is stored there and the decoder accepts the path; it then returns the stored figure, and otherwise the read error for that path |
| `Files.FileSystem.ImRead` | src/xAnimate/_make_animation.py:138 | returns the figure saved at the path exactly when a decodable PNG is there, and the read error otherwise |
| `Files.FileSystem.MimSave` | src/xAnimate/_make_animation.py:142-145 | writes the frames, duration and loop setting at the output path and nothing else, or raises and writes nothing |
| `FrameStore.TmpDirPath` | src/xAnimate/_make_animation.py:55-56 | the temporary directory is a direct child of the output directory: its path starts with `dir_out + "/"` and, when neither the prefix nor the stem holds a slash, has no further slash |
| `FrameStore.IndexStr` | src/xAnimate/_make_animation.py:104 | the index string is exactly `n_digits` long when `str(ii)` fits, and `str(ii)`'s own length otherwise: `zfill` pads and never truncates |
| `FrameStore.IndexStrDigits` | src/xAnimate/_make_animation.py:104 | the padded index consists of digits only: padding adds zeros, never a sign |
| `FrameStore.FrameName` | src/xAnimate/_make_animation.py:105 | the file name is at least as long as the prefix, the `n_digits` padded digits and `.png` together |
| `FrameStore.FrameNameRoundTrip` | src/xAnimate/_make_animation.py:104-105 | a file name is the prefix, then digits only, then `.png`, and those digits read back as the keyframe number |
| `FrameStore.FramePath` | src/xAnimate/_make_animation.py:106 | the frame path is longer than the directory path and has a `/` at that position (that the directory path is its prefix is `FramePathInside`) |
| `FrameStore.FramePathsNext` | src/xAnimate/_make_animation.py:109 | each keyframe appends exactly its own path to `fp_out_list` |
| `FrameStore.Render` | src/xAnimate/_make_animation.py:101 | the frame function raises at keyframe `ii` exactly when the environment says so; otherwise the figure is drawn from the selections it was given |
| `FrameStore.FramePaths` | src/xAnimate/_make_animation.py:88-109 | the list of frame paths has one entry per keyframe |
| `FrameStore.RandomSuffixWidth` | src/xAnimate/_make_animation.py:55 | a suffix drawn from `[1000000, 9999999]` always has 7 digits and reads back as itself |
| `FrameStore.TmpDirEndsWithSuffix` | src/xAnimate/_make_animation.py:56 | the temporary directory's name ends in a dot and the 7 digits of the suffix |
| `FrameStore.OutputOutsideTmpDir` | src/xAnimate/_make_animation.py:52-56 | the output file never lies inside the temporary directory |
| `FrameStore.StemDotCannotMatchDirName` | src/xAnimate/_make_animation.py:53 | a file name equal to the directory name would need a suffix with a second dot |
| `FrameStore.FileNameHasNoSlash` | src/xAnimate/_make_animation.py:54 | a file name below the directory would need a slash |
| `FrameStore.IndexStrWidth` | src/xAnimate/_make_animation.py:85-104 | every index below `n_keyframes` is written with exactly `len(str(n_keyframes))` digits |
| `FrameStore.IndexStrFixed` | src/xAnimate/_make_animation.py:104 | an index that fits in `w` digits is zero-padded to its `w`-digit numeral |
| `FrameStore.IndexStrRoundTrip` | src/xAnimate/_make_animation.py:104 | the padded index reads back as the keyframe number, whatever the width |
| `FrameStore.NameLess` | src/xAnimate/_make_animation.py:105 | when both indices fit in `w >= 1` digits, the smaller keyframe's file name sorts first |
| `FrameStore.FrameNameOrder` | src/xAnimate/_make_animation.py:104-105 | name `i` sorts before name `j` exactly when `i < j`, for all keyframes of a run |
| `FrameStore.BoundaryNames` | src/xAnimate/_make_animation.py:85-105 | 9, 10 and 100 keyframes get widths 1, 2 and 3, and names such as `xanim_tmpfile_09.png` |
| `FrameStore.FramePathInside` | src/xAnimate/_make_animation.py:106 | every frame path lies strictly inside the temporary directory |
| `Compile.Ms2Fps` | src/xAnimate/_make_animation.py:118-120 | the conversion raises ZeroDivisionError exactly for 0; otherwise the result times the argument is 1000 |
| `Compile.Ms2FpsInverse` | src/xAnimate/_make_animation.py:118-120 | for a non-zero rate, duration times rate is 1000 and converting twice gives the rate back |
| `Compile.Ms2FpsExamples` | src/ezanimate/_make_animation.py:81-83 | fps 10 gives 100 ms, fps 25 gives 40 ms, and 0 raises ZeroDivisionError |
| `Compile.FirstUnreadable` | src/xAnimate/_make_animation.py:137-138 | every path before the result can be read back and the path at the result cannot |
| `Compile.DecodeFrom` | src/xAnimate/_make_animation.py:135-139 | the frames of the list in list order, one per path, or the read error of the first path that cannot be read |
| `Compile.ReadFrames` | src/xAnimate/_make_animation.py:135-139 | the read loop yields exactly the decoded frames in list order, or stops at the first unreadable path |
| `Compile.Compiled` | src/xAnimate/_make_animation.py:135-145 | compiling succeeds exactly when every listed frame decodes, the rate is non-zero and the encoder succeeds; the animation then has one frame per path, the requested loop setting and a duration that times the rate gives 1000 |
| `Compile.CompiledFramesInListOrder` | src/xAnimate/_make_animation.py:135-145 | a compiled animation holds one frame per listed path, in list order, each shown for `1000 / fps` ms, with the requested loop setting |
| `Compile.CompileImagesIntoAnimation` | src/xAnimate/_make_animation.py:122-145 | writes the compiled animation at the output path and nothing else, or raises and writes nothing |
| `Pipeline.ScheduleFor` | src/xAnimate/_make_animation.py:81-85 | a zero stride raises; the count is the ceiling for a positive stride and zero for a negative one; every index fits in the digit width |
| `Pipeline.ScheduleExamples` | src/xAnimate/_make_animation.py:82-85 | 23 at stride 5 gives 5 keyframes of width 1; 10 and 100 keyframes get widths 2 and 3 |
| `Pipeline.DigitsFit` | src/xAnimate/_make_animation.py:85-89 | every keyframe `range(n_keyframes)` visits fits in `len(str(n_keyframes))` digits |
| `Pipeline.FirstFailureFrom` | src/xAnimate/_make_animation.py:89-110 | every keyframe before the result is rendered and saved, and the one at the result fails |
| `Pipeline.FirstFailure` | src/xAnimate/_make_animation.py:89-110 | the least keyframe whose rendering or saving raises, or the keyframe count |
| `Pipeline.FirstFailureNone` | src/xAnimate/_make_animation.py:89-110 | when every keyframe renders and saves, the loop runs to the end |
| `Pipeline.FirstFailureIsLeast` | src/xAnimate/_make_animation.py:101-108 | a failing keyframe preceded only by successful ones is where the loop stops |
| `Pipeline.FramePathsDistinct` | src/xAnimate/_make_animation.py:104-106 | distinct keyframes are saved to distinct files, whatever the digit width |
| `Pipeline.FailureAt` | src/xAnimate/_make_animation.py:101-108 | the exception a failing keyframe raises: the frame function's own, or, when the figure was drawn, the `savefig` error for that keyframe's frame path |
| `Pipeline.Persisted` | src/xAnimate/_make_animation.py:106-109 | saving frames only adds entries: every path present before the loop is still present after `k` keyframes |
| `Pipeline.PersistedNext` | src/xAnimate/_make_animation.py:106-108 | saving one more keyframe writes its figure at its frame path and changes nothing else |
| `Pipeline.PersistedAt` | src/xAnimate/_make_animation.py:106-109 | after `k` keyframes, frame `j < k` holds keyframe `j`'s figure; no later frame overwrote it |
| `Pipeline.PersistedOutside` | src/xAnimate/_make_animation.py:106-108 | the loop changes nothing outside the temporary directory, nor the directory entry itself |
| `Pipeline.PersistedRemoved` | src/xAnimate/_make_animation.py:114 | removing the temporary directory removes every frame the loop saved |
| `Pipeline.Values` | src/xAnimate/_make_animation.py:139 | the rendered figures, one per keyframe, in keyframe order |
| `Pipeline.FirstIn` | src/xAnimate/_make_animation.py:137-138 | no path before the result is in the set the decoder rejects, and the path at the result is in it |
| `Pipeline.Produced` | src/xAnimate/_make_animation.py:88-112 | a keyframe that fails to render or save, a zero rate or a failing encoder each make the run raise; an animation has one frame per keyframe, the requested loop setting and a duration that times the rate gives 1000 |
| `Pipeline.ProducedAnimation` | src/xAnimate/_make_animation.py:88-112 | a run yields an animation exactly when no keyframe fails to render or save, every frame reads back, the rate is non-zero and encoding succeeds; it then shows every keyframe's figure once, in keyframe order, for `1000 / fps` ms each |
| `Pipeline.FirstUnreadableIsFirstIn` | src/xAnimate/_make_animation.py:137-138 | once all frames are saved, a frame reads back exactly when the decoder accepts its path |
| `Pipeline.CompiledPersisted` | src/xAnimate/_make_animation.py:109-112 | compiling the frame list after a complete loop yields exactly the file-system-free outcome `Produced` |
| `XAnimate.MakePlan` | src/xAnimate/_make_animation.py:75-85 | a failed check's exception is the result; otherwise the wrapped list passed the check and the schedule uses `data[0]`'s extent |
| `XAnimate.FigureAt` | src/xAnimate/_make_animation.py:95-101 | the frame function raises at keyframe `ii` exactly when the environment says so, with that keyframe's render error; a figure is drawn from exactly that keyframe's selections `data_ii` |
| `XAnimate.Figures` | src/xAnimate/_make_animation.py:95-101 | one frame-function result per keyframe |
| `XAnimate.Outcome` | src/xAnimate/_make_animation.py:67-116 | a failed `check_data` is the outcome; a passed check with a zero stride raises ZeroDivisionError; a successful run yields an animation with the requested loop setting and a duration that times the rate gives 1000 |
| `XAnimate.SaveKeyframe` | src/xAnimate/_make_animation.py:95-108 | one keyframe: when the frame function raises, or `savefig` raises, nothing is saved and that exception is the result; otherwise exactly the figure is saved at the frame path |
| `XAnimate.RenderFrames` | src/xAnimate/_make_animation.py:88-110 | saves frames up to the first failing keyframe and raises that failure; with no failure, returns the list of all frame paths in keyframe order |
| `XAnimate.TryMakeAnimation` | src/xAnimate/_make_animation.py:67-116 | a failed plan changes nothing; a failed run leaves exactly the frames saved before the failure; a successful run leaves the old state minus the temporary directory plus the animation |
| `XAnimate.Cleanup` | src/xAnimate/_make_animation.py:61-63 | `rmtree` of the temporary directory: removes its tree, or raises for a missing path or a file |
| `XAnimate.MakeAnimation` | src/xAnimate/_make_animation.py:22-63 | a name collision with a directory deletes that directory; with a file, or after a refused `mkdir`, the removal's own exception escapes and nothing changes; otherwise the call returns normally, the temporary directory is gone, and the animation exists exactly when the run succeeded |
| `XAnimate.SingleInputIsWrapped` | src/xAnimate/_make_animation.py:75-76 | a single dataset behaves exactly as a one-element list |
| `XAnimate.MismatchStopsBeforeRendering` | src/xAnimate/_make_animation.py:77 | when `data[0]` has the dimension, two datasets that have it and disagree on its extent stop the run with the mismatch error |
| `XAnimate.AnimationShowsEveryKeyframe` | src/xAnimate/_make_animation.py:82-112 | for a positive stride, a successful animation has `ceil(n_anim / stride)` frames; frame `j` is the figure for the selection at `j * stride`, shown for `1000 / fps` ms |
| `XAnimate.RenderFailureStopsTheRun` | src/xAnimate/_make_animation.py:101 | when every earlier keyframe renders and saves, the frame function raising at keyframe `k` stops the run with that error, and the loop stops at `k` after saving frames `0 .. k-1` |
| `EzAnimate.IndexXarray` | src/ezanimate/_make_animation.py:9-11 | raises NameError for `ii` when the namespace lacks it; on success selects `ii * index_stride` from the namespace, within the dimension |
| `EzAnimate.MakePlan` | src/ezanimate/_make_animation.py:40-53 | KeyError without the dimension; otherwise the schedule of the dataset's extent |
| `EzAnimate.FigureAt` | src/ezanimate/_make_animation.py:62-64 | an `_index_xarray` error is the keyframe's result; after indexing succeeds, the frame function's render error is the result exactly when it raises at `ii`; a figure means it did not raise and was given exactly the selection `_index_xarray` returned |
| `EzAnimate.Figures` | src/ezanimate/_make_animation.py:62-64 | one frame-function result per keyframe |
| `EzAnimate.CompileImagesIntoAnimation` | src/ezanimate/_make_animation.py:85-107 | compiles with the encoder's default loop setting, writing only the output path, or raises and writes nothing |
| `EzAnimate.SaveKeyframe` | src/ezanimate/_make_animation.py:62-70 | one keyframe: when `_index_xarray`, the frame function or `savefig` raises, nothing is saved and that exception is the result; otherwise exactly the figure is saved at the frame path |
| `EzAnimate.RenderFrames` | src/ezanimate/_make_animation.py:56-73 | saves frames up to the first keyframe whose indexing, rendering or saving raises and raises that; with no failure, returns all frame paths in keyframe order |
| `EzAnimate.MakeAnimation` | src/ezanimate/_make_animation.py:13-79 | planning errors and `mkdir` errors escape before anything changes; a failed run escapes leaving the temporary directory with the frames saved so far; a successful run leaves the old state minus the directory plus the animation |
| `EzAnimate.IndexArgumentIgnored` | src/ezanimate/_make_animation.py:9-10 | the `index` argument has no effect on the result |
| `EzAnimate.FirstKeyframeRaisesNameError` | src/ezanimate/_make_animation.py:62 | without `ii` in the namespace, the first keyframe raises NameError and no frame is saved |
| `EzAnimate.EveryKeyframeSelectsTheSameSlice` | src/ezanimate/_make_animation.py:10 | were the names bound, every keyframe would select the same slice |
| `EzAnimate.ZeroExtentGivesNoFrames` | src/ezanimate/_make_animation.py:41-57 | extent 0 gives no keyframe, width 1, no frame paths, and an animation without frames when encoding succeeds |

## Left out

- Pixels are not modelled. A figure is the list of selections it was drawn from,
  standing for what matplotlib draws; `savefig`, `imread` and `mimsave` keep it
  unchanged. Transparency, face colour and `plt.close` have no effect in the model.
- xarray's `isel` and `squeeze` are not modelled. A selection is the position of
  its dataset plus the index it selects, or none.
- The frame function's failure to return a figure is modelled only as an exception
  at a chosen keyframe.
- `random.randint` is the parameter `r`, constrained to `[1000000, 9999999]`.
- `Path(fp_out).resolve()`, `.stem` and `.parents[0]` are not computed. The output
  directory, stem and suffix are parameters.
- In xAnimate's `make_animation`, the `Path` calls before the temporary
  directory's name exists (`resolve`, `.stem`, `.parents[0]`) are taken to
  succeed. Were one to raise, the bare `except` would itself raise NameError on
  `dir_tmp`. ezanimate's planning errors before `mkdir` (KeyError for the
  dimension, ZeroDivisionError for the stride) are modelled by `EzAnimate.MakePlan`.
- The `verbose` progress printing, `np.round`, ezanimate's `print(dir_tmp)` and
  `warnings.filterwarnings` are output only, and are left out.
- **Float rounding.** `np.ceil(n_anim / index_stride)` is exact integer ceiling
  division; floating-point rounding for very large extents is not modelled. The
  duration `1000 / fps` is an exact `real`.
- **Strides and rates.** Only integer strides are modelled. Non-integer frame
  rates are modelled as reals.
- The units imageio gives `duration` are not modelled. The model passes the value
  as it is.
- Datasets passed as a tuple or another non-list sequence are not modelled. The
  code wraps them as a single dataset.
- **Other exceptions.** Beyond those it names, the model raises no exception:
  - Raised by the frame function: only the modelled failure.
  - `KeyboardInterrupt`: not modelled.
  - Out-of-memory: not modelled.
- **Parent directories.** The file system is a flat map from paths to entries
  and does not record parent directories. Whether `mkdir` under a missing parent
  fails is decided by the `mkdirRefused` flag of `Env`, not by the shape of the
  tree. Likewise, `mimsave` onto a path that holds a directory fails only when
  `encodeFails` is set; otherwise it replaces that entry.
- `Files.FileSystem.SaveFig`, `Files.FileSystem.MimSave`, `XAnimate.MakeAnimation`
  and `EzAnimate.MakeAnimation`: a `savefig` or `mimsave` that raises is taken to
  write nothing. A partial file that a failing write leaves behind is not modelled.
- Concurrent runs sharing a directory name are not modelled. The file system has
  one owner per call.
- `src/xAnimate/frames/_xarray_defaults.py` (`Plot.__call__`) forwards to
  xarray's `.plot`, and is not part of this model.

=== FILE: common.dfy ===
/** Shared vocabulary: optional values, results, and the exceptions the pipeline can raise. */
module Common {

  datatype Option<T> = None | Some(value: T)

  datatype Result<T> = Ok(value: T) | Err(error: Error)

  /** The exceptions of the pipeline and of the collaborators it calls, named after what raises them. */
  datatype Error =
    | IndexError                       // `data[0]` on an empty list
    | KeyError(key: string)            // `.sizes[anim_dim]` on a dataset without that dimension
    | DimensionMismatch                // the ValueError raised by `check_data`
    | ZeroDivision                     // `n_anim / 0` or `1000 / 0`
    | NameError(name: string)          // a name that is bound nowhere
    | InvalidDimension(dim: string)    // `isel` along a dimension the dataset lacks
    | IndexOutOfRange(index: int)      // `isel` past either end
    | RenderFailed(keyframe: nat)      // the caller's frame function raised
    | SaveFailed(path: string)         // `savefig` raised
    | FileExists(path: string)         // `os.mkdir` on a path that exists
    | MkdirFailed(path: string)        // `os.mkdir` refused for another reason
    | FileNotFound(path: string)       // `shutil.rmtree` on a missing path
    | NotADirectory(path: string)      // `shutil.rmtree` on a file
    | ReadFailed(path: string)         // `imageio.imread` could not decode a frame
    | EncodeFailed                     // `imageio.mimsave` raised

  /** How a call of `make_animation` ends for its caller: it returns None, or an exception escapes. */
  datatype Completion = Returned | Raised(error: Error)
}

=== FILE: compile.dfy ===
/**
 * The animation compiler: reads the frame files back in list order, turns the
 * frame rate into a per-frame duration and hands both to the encoder.
 */
module Compile {
  import opened Common
  import opened Files

  /**
   * `ms2fps(ms) = 1000 / ms`. Despite its name it is called with the frame
   * rate and yields the frame duration in milliseconds; `1000 / x` is its own
   * inverse, so both readings agree.
   */
  function Ms2Fps(ms: real): (r: Result<real>)
    ensures r.Ok? <==> ms != 0.0
    ensures r.Err? ==> r.error == ZeroDivision
    ensures r.Ok? ==> r.value * ms == 1000.0
  {
    if ms == 0.0 then Err(ZeroDivision) else Ok(1000.0 / ms)
  }

  /** Duration times rate is one second, and converting twice gives the rate back. */
  lemma Ms2FpsInverse(fps: real)
    requires fps != 0.0
    ensures Ms2Fps(fps).Ok? && Ms2Fps(fps).value * fps == 1000.0
    ensures Ms2Fps(Ms2Fps(fps).value) == Ok(fps)
  {
    var d := 1000.0 / fps;
    assert d * fps == 1000.0;
    assert 1000.0 / d == fps;
  }

  lemma Ms2FpsExamples()
    ensures Ms2Fps(10.0) == Ok(100.0)
    ensures Ms2Fps(25.0) == Ok(40.0)
    ensures Ms2Fps(0.0) == Err(ZeroDivision)
  {
  }

  /** The position of the first path from `from` on that `imread` cannot decode, or `|fpList|`. */
  function FirstUnreadable(entries: map<Path, Entry>, fpList: seq<Path>, unreadable: set<Path>, from: nat): (k: nat)
    requires from <= |fpList|
    ensures from <= k <= |fpList|
    ensures forall j :: from <= j < k ==> ReadFrame(entries, fpList[j], unreadable).Ok?
    ensures k < |fpList| ==> ReadFrame(entries, fpList[k], unreadable).Err?
    decreases |fpList| - from
  {
    if from == |fpList| then from
    else if ReadFrame(entries, fpList[from], unreadable).Err? then from
    else FirstUnreadable(entries, fpList, unreadable, from + 1)
  }

  /**
   * The frames decoded from `fpList[from..]`, in list order, or the error of
   * the first path that cannot be decoded.
   */
  function DecodeFrom(entries: map<Path, Entry>, fpList: seq<Path>, unreadable: set<Path>, from: nat)
    : (r: Result<seq<Figure>>)
    requires from <= |fpList|
    ensures var k := FirstUnreadable(entries, fpList, unreadable, from);
      if k < |fpList| then r == Err(ReadFailed(fpList[k]))
      else (r.Ok? && |r.value| == |fpList| - from &&
        forall j :: from <= j < |fpList| ==> ReadFrame(entries, fpList[j], unreadable) == Ok(r.value[j - from]))
    decreases |fpList| - from
  {
    if from == |fpList| then Ok([])
    else match ReadFrame(entries, fpList[from], unreadable)
      case Err(e) => Err(e)
      case Ok(f) =>
        match DecodeFrom(entries, fpList, unreadable, from + 1)
        case Err(e) => Err(e)
        case Ok(rest) => Ok([f] + rest)
  }

  /** The loop of `compile_images_into_animation` that fills `frames`, one `imread` per path. */
  method ReadFrames(fs: FileSystem, fpList: seq<Path>, unreadable: set<Path>) returns (r: Result<seq<Figure>>)
    ensures r == DecodeFrom(fs.entries, fpList, unreadable, 0)
  {
    var frames: seq<Figure> := [];
    var ii := 0;
    while ii < |fpList|
      invariant 0 <= ii <= |fpList|
      invariant |frames| == ii
      invariant forall j :: 0 <= j < ii ==> ReadFrame(fs.entries, fpList[j], unreadable) == Ok(frames[j])
    {
      var image := fs.ImRead(fpList[ii], unreadable);
      if image.Err? {
        assert FirstUnreadable(fs.entries, fpList, unreadable, 0) == ii;
        return Err(image.error);
      }
      frames := frames + [image.value];
      ii := ii + 1;
    }
    r := Ok(frames);
    assert FirstUnreadable(fs.entries, fpList, unreadable, 0) == |fpList|;
    assert DecodeFrom(fs.entries, fpList, unreadable, 0).value == frames;
  }

  /** What `compile_images_into_animation` writes to `fp_out`, or the exception it raises. */
  function Compiled(entries: map<Path, Entry>, fpList: seq<Path>, fps: real, loop: Option<nat>, env: Env)
    : (r: Result<Entry>)
    ensures r.Ok? <==> DecodeFrom(entries, fpList, env.unreadable, 0).Ok? && fps != 0.0 && !env.encodeFails
    ensures r.Ok? ==>
      (&& r.value.Animation? && |r.value.frames| == |fpList| && r.value.loop == loop
       && r.value.durationMs * fps == 1000.0)
  {
    match DecodeFrom(entries, fpList, env.unreadable, 0)
    case Err(e) => Err(e)
    case Ok(frames) =>
      match Ms2Fps(fps)
      case Err(e) => Err(e)
      case Ok(durationMs) =>
        if env.encodeFails then Err(EncodeFailed) else Ok(Animation(frames, durationMs, loop))
  }

  /**
   * A compiled animation holds the files of the list, decoded in list order,
   * each shown for `1000 / fps` milliseconds.
   */
  lemma CompiledFramesInListOrder(entries: map<Path, Entry>, fpList: seq<Path>, fps: real, loop: Option<nat>, env: Env)
    requires Compiled(entries, fpList, fps, loop, env).Ok?
    ensures var a := Compiled(entries, fpList, fps, loop, env).value;
      && a.Animation? && |a.frames| == |fpList| && a.loop == loop
      && (forall k :: 0 <= k < |fpList| ==> ReadFrame(entries, fpList[k], env.unreadable) == Ok(a.frames[k]))
      && a.durationMs * fps == 1000.0
  {
    Ms2FpsInverse(fps);
  }

  /**
   * `compile_images_into_animation`: reads the frames in list order, converts
   * the rate to a duration and writes the animation to `fpOut`; when any step
   * raises, nothing is written.
   */
  method CompileImagesIntoAnimation(fs: FileSystem, fpList: seq<Path>, fpOut: Path, fps: real, loop: Option<nat>, env: Env)
    returns (res: Result<Entry>)
    modifies fs
    ensures res == Compiled(old(fs.entries), fpList, fps, loop, env)
    ensures res.Ok? ==> fs.entries == old(fs.entries)[fpOut := res.value]
    ensures res.Err? ==> fs.entries == old(fs.entries)
  {
    var frames := ReadFrames(fs, fpList, env.unreadable);
    if frames.Err? {
      return Err(frames.error);
    }
    var duration := Ms2Fps(fps);
    if duration.Err? {
      return Err(duration.error);
    }
    var err := fs.MimSave(fpOut, frames.value, duration.value, loop, env.encodeFails);
    if err.Some? {
      return Err(err.value);
    }
    return Ok(Animation(frames.value, duration.value, loop));
  }
}

=== FILE: datasets.dfy ===
/**
 * The input datasets: the consistency check run before any rendering, and the
 * per-keyframe selection handed to the frame function.
 */
module Datasets {
  import opened Common
  import opened Keyframes

  /**
   * An xarray dataset or data array, seen through the sizes of its named
   * dimensions; `id` stands for its contents, which the pipeline never reads.
   */
  datatype Dataset = Dataset(id: nat, sizes: map<string, nat>)

  predicate HasDim(d: Dataset, dim: string) {
    dim in d.sizes
  }

  /** What a caller passes as `data`: one dataset, or a list of them. */
  datatype Input = Single(d: Dataset) | List(items: seq<Dataset>)

  /** A single dataset is wrapped into a one-element list; a list is used as it is. */
  function AsList(input: Input): (r: seq<Dataset>)
    ensures input.Single? ==> |r| == 1 && r[0] == input.d
    ensures input.List? ==> r == input.items
  {
    match input
    case Single(d) => [d]
    case List(items) => items
  }

  /** Every dataset that has the dimension agrees with the first one on its extent. */
  predicate Consistent(data: seq<Dataset>, dim: string)
    requires |data| > 0 && HasDim(data[0], dim)
  {
    forall k :: 0 <= k < |data| && HasDim(data[k], dim) ==> data[k].sizes[dim] == data[0].sizes[dim]
  }

  /** What `check_data` raises, or None when it returns normally. */
  function CheckVerdict(data: seq<Dataset>, dim: string): (r: Option<Error>)
    ensures r == None <==> |data| > 0 && HasDim(data[0], dim) && Consistent(data, dim)
    ensures r.Some? ==> r.value == IndexError || r.value == KeyError(dim) || r.value == DimensionMismatch
  {
    if |data| == 0 then Some(IndexError)
    else if !HasDim(data[0], dim) then Some(KeyError(dim))
    else if Consistent(data, dim) then None
    else Some(DimensionMismatch)
  }

  /**
   * `check_data`: reads the extent of the first dataset, then walks the list
   * and raises at the first dataset that has the dimension with another extent.
   */
  method CheckData(data: seq<Dataset>, dim: string) returns (err: Option<Error>)
    ensures |data| == 0 ==> err == Some(IndexError)
    ensures |data| > 0 && !HasDim(data[0], dim) ==> err == Some(KeyError(dim))
    ensures |data| > 0 && HasDim(data[0], dim) ==>
      (err == None <==> Consistent(data, dim)) && (err == None || err == Some(DimensionMismatch))
  {
    if |data| == 0 {
      return Some(IndexError);
    }
    if dim !in data[0].sizes {
      return Some(KeyError(dim));
    }
    var nTime0 := data[0].sizes[dim];
    var k := 0;
    while k < |data|
      invariant 0 <= k <= |data|
      invariant forall j :: 0 <= j < k && HasDim(data[j], dim) ==> data[j].sizes[dim] == nTime0
    {
      if dim in data[k].sizes && data[k].sizes[dim] != nTime0 {
        return Some(DimensionMismatch);
      }
      k := k + 1;
    }
    return None;
  }

  /**
   * The check fails exactly when two datasets that both have the dimension
   * disagree on its extent (given that the first dataset has it).
   */
  lemma MismatchIffTwoDisagree(data: seq<Dataset>, dim: string)
    requires |data| > 0 && HasDim(data[0], dim)
    ensures CheckVerdict(data, dim) == Some(DimensionMismatch) <==>
      exists i, j :: 0 <= i < |data| && 0 <= j < |data| && HasDim(data[i], dim) && HasDim(data[j], dim)
        && data[i].sizes[dim] != data[j].sizes[dim]
  {
    if !Consistent(data, dim) {
      var k :| 0 <= k < |data| && HasDim(data[k], dim) && data[k].sizes[dim] != data[0].sizes[dim];
      assert HasDim(data[0], dim) && data[k].sizes[dim] != data[0].sizes[dim];
    }
  }

  /** Datasets without the dimension never change the verdict. */
  lemma {:induction false} DatasetsWithoutDimIgnored(data: seq<Dataset>, extra: Dataset, dim: string)
    requires |data| > 0 && !HasDim(extra, dim)
    ensures CheckVerdict(data + [extra], dim) == CheckVerdict(data, dim)
  {
    var all := data + [extra];
    assert all[0] == data[0];
    if HasDim(data[0], dim) {
      assert Consistent(all, dim) <==> Consistent(data, dim) by {
        assert forall k :: 0 <= k < |data| ==> all[k] == data[k];
      }
    }
  }

  // ---------------------------------------------------------------------------
  // Per-keyframe selection

  /**
   * One positional argument of the frame function: input dataset `pos`,
   * selected at `index` along the animation dimension, or passed through
   * unindexed (`None`). Both are squeezed, which the model does not track.
   */
  datatype Slice = Slice(pos: nat, index: Option<int>)

  /** The `data_ii` list of keyframe `ii`. */
  function FrameSlices(data: seq<Dataset>, dim: string, ii: nat, stride: int): (r: seq<Slice>)
    ensures |r| == |data|
    ensures forall k :: 0 <= k < |data| ==> r[k].pos == k
    ensures forall k :: 0 <= k < |data| ==> (r[k].index.Some? <==> HasDim(data[k], dim))
    ensures forall k :: 0 <= k < |data| && HasDim(data[k], dim) ==> r[k].index == Some(KeyframeIndex(ii, stride))
  {
    seq(|data|, k requires 0 <= k < |data| =>
      if HasDim(data[k], dim) then Slice(k, Some(KeyframeIndex(ii, stride))) else Slice(k, None))
  }

  /**
   * The inner loop of `_try_make_animation`: one entry per input dataset, in
   * input order, indexed when the dataset has the dimension and passed through
   * otherwise.
   */
  method SelectKeyframe(data: seq<Dataset>, dim: string, ii: nat, stride: int) returns (dataIi: seq<Slice>)
    ensures |dataIi| == |data|
    ensures forall k :: 0 <= k < |data| ==> dataIi[k].pos == k
    ensures forall k :: 0 <= k < |data| ==> (dataIi[k].index.Some? <==> HasDim(data[k], dim))
    ensures forall k :: 0 <= k < |data| && HasDim(data[k], dim) ==> dataIi[k].index == Some(KeyframeIndex(ii, stride))
    ensures dataIi == FrameSlices(data, dim, ii, stride)
  {
    dataIi := [];
    var k := 0;
    while k < |data|
      invariant 0 <= k <= |data|
      invariant dataIi == FrameSlices(data, dim, ii, stride)[..k]
    {
      if dim in data[k].sizes {
        dataIi := dataIi + [Slice(k, Some(ii * stride))];
      } else {
        dataIi := dataIi + [Slice(k, None)];
      }
      k := k + 1;
    }
  }

  /**
   * Every index a keyframe selects lies inside the dimension of the dataset it
   * selects from, once the check has passed.
   */
  lemma SelectedIndexInRange(data: seq<Dataset>, dim: string, stride: int, ii: nat)
    requires |data| > 0 && HasDim(data[0], dim) && Consistent(data, dim)
    requires stride >= 1 && ii < KeyframeCount(data[0].sizes[dim], stride).value
    ensures forall k :: 0 <= k < |data| && FrameSlices(data, dim, ii, stride)[k].index.Some? ==>
      0 <= FrameSlices(data, dim, ii, stride)[k].index.value < data[k].sizes[dim]
  {
    KeyframeInRange(data[0].sizes[dim], stride, ii);
  }

  /** A dataset without the dimension reaches every keyframe in the same form. */
  lemma PassedThroughUnchanged(data: seq<Dataset>, dim: string, stride: int, i: nat, j: nat, k: nat)
    requires k < |data| && !HasDim(data[k], dim)
    ensures FrameSlices(data, dim, i, stride)[k] == FrameSlices(data, dim, j, stride)[k] == Slice(k, None)
  {
  }
}

=== FILE: decimal.dfy ===
/**
 * Decimal text as Python writes it: `str(n)` for integers, `str.zfill`, and the
 * ordering `<` on strings. Frame file names are built from these, and their
 * order on disk is the order of these strings.
 */
module Decimal {

  function Pow10(k: nat): (r: nat)
    ensures r >= 1
  {
    if k == 0 then 1 else 10 * Pow10(k - 1)
  }

  lemma {:induction false} Pow10Monotone(a: nat, b: nat)
    requires a <= b
    ensures Pow10(a) <= Pow10(b)
    decreases b
  {
    if a < b {
      Pow10Monotone(a, b - 1);
    }
  }

  lemma {:induction false} Pow10Reflect(a: nat, b: nat)
    requires Pow10(a) < Pow10(b)
    ensures a < b
    decreases a
  {
    if a > 0 && b > 0 {
      Pow10Reflect(a - 1, b - 1);
    }
  }

  predicate IsDigit(c: char) {
    '0' <= c <= '9'
  }

  function DigitChar(d: nat): (c: char)
    requires d < 10
    ensures IsDigit(c) && c as int - '0' as int == d
  {
    (d + '0' as int) as char
  }

  /**
   * Python's `str(n)` for a non-negative integer: the shortest decimal numeral.
   * Its length is the number of decimal digits of `n`: the one `k` with
   * `10^(k-1) <= n < 10^k` (and 1 for zero).
   */
  function NatToStr(n: nat): (s: string)
    ensures 1 <= |s|
    ensures n < Pow10(|s|)
    ensures |s| > 1 ==> Pow10(|s| - 1) <= n
    ensures forall i :: 0 <= i < |s| ==> IsDigit(s[i])
    decreases n
  {
    if n < 10 then [DigitChar(n)] else NatToStr(n / 10) + [DigitChar(n % 10)]
  }

  /** Python's `str(i)` for any integer: a minus sign before the digits of `|i|`. */
  function IntToStr(i: int): (s: string)
    ensures 1 <= |s|
    ensures i >= 0 ==> (forall k :: 0 <= k < |s| ==> IsDigit(s[k])) && ParseDecimal(s) == i
    ensures i < 0 ==> s[0] == '-' && (forall k :: 1 <= k < |s| ==> IsDigit(s[k])) && ParseDecimal(s[1..]) == -i
  {
    if i < 0 then
      NatToStrRoundTrip(-i);
      assert ("-" + NatToStr(-i))[1..] == NatToStr(-i);
      "-" + NatToStr(-i)
    else
      NatToStrRoundTrip(i);
      NatToStr(i)
  }

  /** Reads a string of decimal digits back as a number; the inverse of `NatToStr` and `Fixed`. */
  function ParseDecimal(s: string): int {
    if s == [] then 0 else 10 * ParseDecimal(s[..|s| - 1]) + (s[|s| - 1] as int - '0' as int)
  }

  function Zeros(k: nat): (s: string)
    ensures |s| == k && forall i :: 0 <= i < k ==> s[i] == '0'
  {
    seq(k, _ => '0')
  }

  /**
   * Python's `s.zfill(width)`: pads on the left with zeros up to `width`
   * characters, keeping a leading sign in front of the zeros; a string that is
   * already as wide is returned unchanged.
   */
  function ZFill(s: string, width: int): (r: string)
    ensures |s| >= width ==> r == s
    ensures |s| < width ==> |r| == width
    ensures |s| < width && !(|s| > 0 && (s[0] == '+' || s[0] == '-')) ==>
      r[width - |s|..] == s && forall i :: 0 <= i < width - |s| ==> r[i] == '0'
    ensures |s| < width && |s| > 0 && (s[0] == '+' || s[0] == '-') ==>
      r[0] == s[0] && r[width - |s| + 1..] == s[1..] && forall i :: 1 <= i <= width - |s| ==> r[i] == '0'
  {
    if |s| >= width then s
    else if |s| > 0 && (s[0] == '+' || s[0] == '-') then [s[0]] + Zeros(width - |s|) + s[1..]
    else Zeros(width - |s|) + s
  }

  /** The last `w` decimal digits of `n`, most significant first (zero-padded). */
  function Fixed(n: nat, w: nat): (s: string)
    ensures |s| == w
  {
    if w == 0 then [] else Fixed(n / 10, w - 1) + [DigitChar(n % 10)]
  }

  /**
   * Python's `<` on strings: compare code points from the left; a proper prefix
   * comes first.
   */
  predicate LexLess(a: string, b: string)
    decreases |a|
  {
    b != [] && (a == [] || a[0] < b[0] || (a[0] == b[0] && LexLess(a[1..], b[1..])))
  }

  // ---------------------------------------------------------------------------
  // Digit counts

  /** A number has exactly `k` digits when it lies in `[10^(k-1), 10^k)`. */
  lemma DigitCount(n: nat, k: nat)
    requires 1 <= k && n < Pow10(k) && (k > 1 ==> Pow10(k - 1) <= n)
    ensures |NatToStr(n)| == k
  {
    var m := |NatToStr(n)|;
    if k > 1 {
      Pow10Reflect(k - 1, m);
    }
    if m > 1 {
      Pow10Reflect(m - 1, k);
    }
  }

  /** A smaller number never needs more digits. */
  lemma NoWiderThan(i: nat, n: nat)
    requires i <= n
    ensures |NatToStr(i)| <= |NatToStr(n)|
  {
    var a := |NatToStr(i)|;
    if a > 1 {
      Pow10Reflect(a - 1, |NatToStr(n)|);
    }
  }

  // ---------------------------------------------------------------------------
  // Round trips

  lemma {:induction false} NatToStrRoundTrip(n: nat)
    ensures ParseDecimal(NatToStr(n)) == n
    decreases n
  {
    if n >= 10 {
      NatToStrRoundTrip(n / 10);
      var s := NatToStr(n);
      assert s[..|s| - 1] == NatToStr(n / 10);
    }
  }

  lemma {:induction false} FixedRoundTrip(n: nat, w: nat)
    requires n < Pow10(w)
    ensures ParseDecimal(Fixed(n, w)) == n
  {
    if w > 0 {
      FixedRoundTrip(n / 10, w - 1);
      var s := Fixed(n, w);
      assert s[..|s| - 1] == Fixed(n / 10, w - 1);
    }
  }

  // ---------------------------------------------------------------------------
  // zfill of a numeral is the fixed-width numeral

  lemma {:induction false} FixedZero(w: nat)
    ensures Fixed(0, w) == Zeros(w)
  {
    if w > 0 {
      FixedZero(w - 1);
      assert Zeros(w) == Zeros(w - 1) + [DigitChar(0)];
    }
  }

  lemma {:induction false} PaddedDigits(n: nat, w: nat)
    requires |NatToStr(n)| <= w
    ensures Zeros(w - |NatToStr(n)|) + NatToStr(n) == Fixed(n, w)
    decreases n
  {
    if n < 10 {
      FixedZero(w - 1);
    } else {
      var t := NatToStr(n / 10);
      PaddedDigits(n / 10, w - 1);
      assert Zeros(w - |NatToStr(n)|) + NatToStr(n) == (Zeros(w - 1 - |t|) + t) + [DigitChar(n % 10)];
    }
  }

  /** `str(n).zfill(w)` is the `w`-digit numeral of `n` whenever `n` fits in `w` digits. */
  lemma ZFillIsFixed(n: nat, w: nat)
    requires |NatToStr(n)| <= w
    ensures ZFill(NatToStr(n), w) == Fixed(n, w)
  {
    var s := NatToStr(n);
    PaddedDigits(n, w);
    if |s| >= w {
      assert Zeros(w - |s|) + s == s;
    } else {
      assert IsDigit(s[0]);
    }
  }

  // ---------------------------------------------------------------------------
  // String order

  lemma {:induction false} LexLessIrreflexive(a: string)
    ensures !LexLess(a, a)
    decreases |a|
  {
    if a != [] {
      LexLessIrreflexive(a[1..]);
    }
  }

  lemma {:induction false} LexLessAsymmetric(a: string, b: string)
    requires LexLess(a, b)
    ensures !LexLess(b, a)
    decreases |a|
  {
    if a != [] && a[0] == b[0] {
      LexLessAsymmetric(a[1..], b[1..]);
    }
  }

  /** Between strings of equal length, whatever follows does not change the order. */
  lemma {:induction false} LexLessAppend(a: string, b: string, x: string, y: string)
    requires |a| == |b| && LexLess(a, b)
    ensures LexLess(a + x, b + y)
    decreases |a|
  {
    if a[0] == b[0] {
      LexLessAppend(a[1..], b[1..], x, y);
      assert (a + x)[1..] == a[1..] + x;
      assert (b + y)[1..] == b[1..] + y;
    }
  }

  /** A common prefix does not change the order. */
  lemma {:induction false} LexLessPrefix(p: string, a: string, b: string)
    ensures LexLess(p + a, p + b) <==> LexLess(a, b)
    decreases |p|
  {
    if p == [] {
      assert p + a == a && p + b == b;
    } else {
      LexLessPrefix(p[1..], a, b);
      assert (p + a)[1..] == p[1..] + a;
      assert (p + b)[1..] == p[1..] + b;
    }
  }

  /** Fixed-width numerals sort in numeric order. */
  lemma {:induction false} FixedOrder(i: nat, j: nat, w: nat)
    requires i < j < Pow10(w)
    ensures LexLess(Fixed(i, w), Fixed(j, w))
  {
    var ci, cj := [DigitChar(i % 10)], [DigitChar(j % 10)];
    if i / 10 < j / 10 {
      FixedOrder(i / 10, j / 10, w - 1);
      LexLessAppend(Fixed(i / 10, w - 1), Fixed(j / 10, w - 1), ci, cj);
    } else {
      assert i / 10 == j / 10 && i % 10 < j % 10;
      assert LexLess(ci, cj);
      LexLessPrefix(Fixed(i / 10, w - 1), ci, cj);
    }
  }
}

=== FILE: ezanimate.dfy ===
/**
 * The older ezanimate front end: one dataset, the keyframe count computed
 * before the temporary directory is created, no `try` around the run, and a
 * compiler call without a loop setting.
 */
module EzAnimate {
  import opened Common
  import opened Decimal
  import opened Keyframes
  import opened Datasets
  import opened Files
  import opened FrameStore
  import Compile
  import opened Pipeline

  const DirPrefix: string := "ezanim_tmp_"
  const FilePrefix: string := "ezanim_tmpfile_"

  /**
   * `_index_xarray(data, index, anim_dim)` as written: its body ignores `index`
   * and looks `ii` and `index_stride` up in the module's global namespace
   * `globals`, then selects along `dim` with Python's negative indexing.
   */
  function IndexXarray(data: Dataset, index: int, dim: string, globals: map<string, int>): (r: Result<Slice>)
    ensures "ii" !in globals ==> r == Err(NameError("ii"))
    ensures r.Ok? ==>
      (&& "ii" in globals && "index_stride" in globals && HasDim(data, dim)
       && r.value == Slice(0, Some(globals["ii"] * globals["index_stride"]))
       && -data.sizes[dim] <= r.value.index.value < data.sizes[dim])
  {
    if "ii" !in globals then Err(NameError("ii"))
    else if "index_stride" !in globals then Err(NameError("index_stride"))
    else
      var i := globals["ii"] * globals["index_stride"];
      if !HasDim(data, dim) then Err(InvalidDimension(dim))
      else if -data.sizes[dim] <= i < data.sizes[dim] then Ok(Slice(0, Some(i)))
      else Err(IndexOutOfRange(i))
  }

  /** `data.sizes[anim_dim]`, `ceil(n_anim / index_stride)` and `len(str(n_keyframes))`. */
  function MakePlan(data: Dataset, dim: string, stride: int): (r: Result<Schedule>)
    ensures !HasDim(data, dim) ==> r == Err(KeyError(dim))
    ensures HasDim(data, dim) ==> r == ScheduleFor(data.sizes[dim], stride)
  {
    if !HasDim(data, dim) then Err(KeyError(dim)) else ScheduleFor(data.sizes[dim], stride)
  }

  /**
   * Keyframe `ii`: `data_ii = _index_xarray(...)`, then the frame function on
   * it; an exception of either is the result.
   */
  function FigureAt(data: Dataset, dim: string, ii: nat, globals: map<string, int>, env: Env): (r: Result<Figure>)
    ensures IndexXarray(data, ii, dim, globals).Err? ==> r == Err(IndexXarray(data, ii, dim, globals).error)
    ensures IndexXarray(data, ii, dim, globals).Ok? ==>
      (r.Err? <==> ii in env.renderFails) && (r.Err? ==> r.error == RenderFailed(ii))
    ensures r.Ok? ==> ii !in env.renderFails && r.value.slices == [IndexXarray(data, ii, dim, globals).value]
  {
    match IndexXarray(data, ii, dim, globals)
    case Err(e) => Err(e)
    case Ok(s) => Render(ii, [s], env)
  }

  /** What the frame function returns at each keyframe. */
  function Figures(data: Dataset, dim: string, count: nat, globals: map<string, int>, env: Env): (r: seq<Result<Figure>>)
    ensures |r| == count
  {
    seq(count, ii requires 0 <= ii < count => FigureAt(data, dim, ii, globals, env))
  }

  /** `compile_images_into_animation` without a `loop` argument: the encoder's default applies. */
  method CompileImagesIntoAnimation(fs: FileSystem, fpList: seq<Path>, fpOut: Path, fps: real, env: Env)
    returns (res: Result<Entry>)
    modifies fs
    ensures res == Compile.Compiled(old(fs.entries), fpList, fps, None, env)
    ensures res.Ok? ==> fs.entries == old(fs.entries)[fpOut := res.value]
    ensures res.Err? ==> fs.entries == old(fs.entries)
  {
    res := Compile.CompileImagesIntoAnimation(fs, fpList, fpOut, fps, None, env);
  }

  /**
   * One pass of the keyframe loop: `_index_xarray`, the frame function and
   * `savefig` for keyframe `ii`. The figure is saved exactly when neither call
   * before `savefig` raises and `savefig` succeeds; otherwise nothing changes.
   */
  method SaveKeyframe(fs: FileSystem, dirTmp: Path, data: Dataset, dim: string, ii: nat, nDigits: nat,
                      globals: map<string, int>, env: Env)
    returns (path: Path, err: Option<Error>)
    modifies fs
    ensures var fig := FigureAt(data, dim, ii, globals, env);
      && path == FramePath(dirTmp, FilePrefix, ii, nDigits)
      && (fig.Err? ==> err == Some(fig.error) && fs.entries == old(fs.entries))
      && (fig.Ok? && ii in env.saveFails ==> err == Some(SaveFailed(path)) && fs.entries == old(fs.entries))
      && (fig.Ok? && ii !in env.saveFails ==> err == None && fs.entries == old(fs.entries)[path := Png(fig.value)])
  {
    path := FramePath(dirTmp, FilePrefix, ii, nDigits);
    var dataIi := IndexXarray(data, ii, dim, globals);
    if dataIi.Err? {
      return path, Some(dataIi.error);
    }
    var fig := Render(ii, [dataIi.value], env);
    if fig.Err? {
      return path, Some(fig.error);
    }
    err := fs.SaveFig(path, fig.value, ii in env.saveFails);
  }

  /** The keyframe loop of `make_animation`, stopping at the first exception. */
  method RenderFrames(fs: FileSystem, dirTmp: Path, data: Dataset, dim: string, count: nat, nDigits: nat,
                      globals: map<string, int>, env: Env)
    returns (fpOutList: seq<Path>, err: Option<Error>)
    modifies fs
    ensures var figs := Figures(data, dim, count, globals, env);
      var k := FirstFailure(figs, env.saveFails);
      && fs.entries == Persisted(old(fs.entries), dirTmp, FilePrefix, nDigits, figs, k)
      && (k < count ==> err == Some(FailureAt(figs, env.saveFails, dirTmp, FilePrefix, nDigits, k)))
      && (k == count ==> err == None && fpOutList == FramePaths(dirTmp, FilePrefix, nDigits, count))
  {
    ghost var figs := Figures(data, dim, count, globals, env);
    ghost var k := FirstFailure(figs, env.saveFails);
    fpOutList := [];
    var ii := 0;
    while ii < count
      invariant 0 <= ii <= k
      invariant fpOutList == FramePaths(dirTmp, FilePrefix, nDigits, ii)
      invariant fs.entries == Persisted(old(fs.entries), dirTmp, FilePrefix, nDigits, figs, ii)
    {
      var path, saved := SaveKeyframe(fs, dirTmp, data, dim, ii, nDigits, globals, env);
      if saved.Some? {
        assert figs[ii] == FigureAt(data, dim, ii, globals, env);
        return fpOutList, saved;
      }
      PersistedNext(old(fs.entries), dirTmp, FilePrefix, nDigits, figs, ii);
      FramePathsNext(dirTmp, FilePrefix, nDigits, ii);
      fpOutList := fpOutList + [path];
      ii := ii + 1;
    }
    return fpOutList, None;
  }

  /**
   * `make_animation`: plans the keyframes, creates `outDir/ezanim_tmp_<stem>.<r>`,
   * renders and saves the frames, compiles them into `outDir/stem+suffix` and
   * removes the directory. Nothing catches an exception: a failure before
   * `mkdir` leaves the file system as it was, one after it leaves the directory
   * behind with the frames saved so far.
   */
  method MakeAnimation(fs: FileSystem, data: Dataset, outDir: Path, stem: string, suffix: string, dim: string,
                       stride: int, fps: real, r: nat, globals: map<string, int>, env: Env)
    returns (c: Completion)
    requires 1000000 <= r <= 9999999
    requires PathShaped(stem, suffix)
    modifies fs
    ensures MakePlan(data, dim, stride).Err? ==>
      c == Raised(MakePlan(data, dim, stride).error) && fs.entries == old(fs.entries)
    ensures var dirTmp := TmpDirPath(outDir, DirPrefix, stem, r);
      MakePlan(data, dim, stride).Ok? && dirTmp in old(fs.entries) ==>
        c == Raised(FileExists(dirTmp)) && fs.entries == old(fs.entries)
    ensures var dirTmp := TmpDirPath(outDir, DirPrefix, stem, r);
      MakePlan(data, dim, stride).Ok? && dirTmp !in old(fs.entries) && env.mkdirRefused ==>
        c == Raised(MkdirFailed(dirTmp)) && fs.entries == old(fs.entries)
    ensures var dirTmp := TmpDirPath(outDir, DirPrefix, stem, r);
      var fpOut := outDir + "/" + stem + suffix;
      MakePlan(data, dim, stride).Ok? && dirTmp !in old(fs.entries) && !env.mkdirRefused ==>
        var p := MakePlan(data, dim, stride).value;
        var figs := Figures(data, dim, p.count, globals, env);
        var o := Produced(figs, dirTmp, FilePrefix, p.nDigits, fps, None, env);
        && (o.Ok? ==> c == Returned && fs.entries == RemoveTree(old(fs.entries), dirTmp)[fpOut := o.value])
        && (o.Err? ==>
              (&& c == Raised(o.error)
               && fs.entries == Persisted(old(fs.entries)[dirTmp := Directory], dirTmp, FilePrefix, p.nDigits, figs,
                                          FirstFailure(figs, env.saveFails))))
  {
    if dim !in data.sizes {
      return Raised(KeyError(dim));
    }
    var nAnim := data.sizes[dim];
    var nKeyframes := KeyframeCount(nAnim, stride);
    if nKeyframes.Err? {
      return Raised(nKeyframes.error);
    }
    var fpOut := outDir + "/" + stem + suffix;
    var dirTmp := TmpDirPath(outDir, DirPrefix, stem, r);
    var made := fs.Mkdir(dirTmp, env.mkdirRefused);
    if made.Some? {
      return Raised(made.value);
    }
    var nDigits := |IntToStr(nKeyframes.value)|;
    var count := Iterations(nKeyframes.value);
    ghost var figs := Figures(data, dim, count, globals, env);
    ghost var start := fs.entries;
    assert MakePlan(data, dim, stride) == Ok(Schedule(count, nDigits));
    var fpOutList, failed := RenderFrames(fs, dirTmp, data, dim, count, nDigits, globals, env);
    if failed.Some? {
      return Raised(failed.value);
    }
    ghost var written := fs.entries;
    OutputOutsideTmpDir(outDir, DirPrefix, stem, suffix, r);
    CompiledPersisted(start, dirTmp, FilePrefix, nDigits, figs, fps, None, env);
    PersistedOutside(start, dirTmp, FilePrefix, nDigits, figs, count, dirTmp);
    var compiled := CompileImagesIntoAnimation(fs, fpOutList, fpOut, fps, env);
    if compiled.Err? {
      return Raised(compiled.error);
    }
    var gone := fs.Rmtree(dirTmp);
    assert gone == None;
    RemoveTreeUpdateOutside(written, dirTmp, fpOut, compiled.value);
    PersistedRemoved(start, dirTmp, FilePrefix, nDigits, figs, count);
    RemoveTreeUpdateInside(old(fs.entries), dirTmp, dirTmp, Directory);
    return Returned;
  }

  // ---------------------------------------------------------------------------
  // Properties of a run

  /** The `index` argument of `_index_xarray` has no effect on what it returns. */
  lemma IndexArgumentIgnored(data: Dataset, i: int, j: int, dim: string, globals: map<string, int>)
    ensures IndexXarray(data, i, dim, globals) == IndexXarray(data, j, dim, globals)
  {
  }

  /**
   * With a namespace that binds neither name, as the module's own does, the
   * first keyframe raises NameError and nothing is saved: the run stops with
   * the temporary directory created and left empty.
   */
  lemma FirstKeyframeRaisesNameError(data: Dataset, dim: string, stride: int, fps: real, globals: map<string, int>,
                                     env: Env, dirTmp: Path)
    requires "ii" !in globals
    requires MakePlan(data, dim, stride).Ok? && MakePlan(data, dim, stride).value.count >= 1
    ensures var p := MakePlan(data, dim, stride).value;
      var figs := Figures(data, dim, p.count, globals, env);
      FirstFailure(figs, env.saveFails) == 0
      && Produced(figs, dirTmp, FilePrefix, p.nDigits, fps, None, env) == Err(NameError("ii"))
  {
    var p := MakePlan(data, dim, stride).value;
    var figs := Figures(data, dim, p.count, globals, env);
    FirstFailureIsLeast(figs, env.saveFails, 0);
  }

  /** Were the two names bound, every keyframe would still select the same slice. */
  lemma EveryKeyframeSelectsTheSameSlice(data: Dataset, dim: string, count: nat, globals: map<string, int>, env: Env,
                                         i: nat, j: nat)
    requires i < count && j < count
    requires Figures(data, dim, count, globals, env)[i].Ok? && Figures(data, dim, count, globals, env)[j].Ok?
    ensures Figures(data, dim, count, globals, env)[i].value == Figures(data, dim, count, globals, env)[j].value
  {
    IndexArgumentIgnored(data, i, j, dim, globals);
  }

  /**
   * A dimension of extent zero gives no keyframe, a one-digit name width, an
   * empty list of frames for the compiler and, when the encoder accepts it, an
   * animation without frames.
   */
  lemma ZeroExtentGivesNoFrames(data: Dataset, dim: string, stride: int, fps: real, globals: map<string, int>,
                                env: Env, dirTmp: Path)
    requires HasDim(data, dim) && data.sizes[dim] == 0 && stride >= 1
    ensures MakePlan(data, dim, stride) == Ok(Schedule(0, 1))
    ensures Figures(data, dim, 0, globals, env) == []
    ensures FramePaths(dirTmp, FilePrefix, 1, 0) == []
    ensures fps != 0.0 && !env.encodeFails ==>
      Produced([], dirTmp, FilePrefix, 1, fps, None, env) == Ok(Animation([], 1000.0 / fps, None))
  {
    assert KeyframeCount(0, stride) == Ok(0);
    assert Values([]) == [];
  }
}

=== FILE: files.dfy ===
/**
 * The file system as the pipeline sees it, and the collaborators that touch it:
 * `os.mkdir`, `shutil.rmtree`, `Figure.savefig`, `imageio.imread` and
 * `imageio.mimsave`. What the collaborators do to the bytes is not modelled;
 * what they add, read or remove is.
 */
module Files {
  import opened Common
  import opened Datasets

  type Path = string

  /** A rendered figure: what the frame function drew from the slices it was given. */
  datatype Figure = Figure(slices: seq<Slice>)

  /** What a path holds. */
  datatype Entry =
    | Directory
    | Png(figure: Figure)
    | Animation(frames: seq<Figure>, durationMs: real, loop: Option<nat>)

  /**
   * How the collaborators behave in one run: whether `os.mkdir` is refused,
   * the keyframes at which the frame function or `savefig` raises, the files
   * `imread` cannot decode, and whether `mimsave` raises.
   */
  datatype Env = Env(
    mkdirRefused: bool,
    renderFails: set<nat>,
    saveFails: set<nat>,
    unreadable: set<Path>,
    encodeFails: bool)

  /** `p` is the directory `dir` itself or lies somewhere below it. */
  predicate InTree(p: Path, dir: Path) {
    p == dir || (|dir| < |p| && p[..|dir| + 1] == dir + "/")
  }

  /** The entries left after `dir` and everything below it is deleted. */
  function RemoveTree(entries: map<Path, Entry>, dir: Path): (r: map<Path, Entry>)
    ensures forall p :: p in r <==> p in entries && !InTree(p, dir)
    ensures forall p :: p in r ==> r[p] == entries[p]
  {
    map p | p in entries && !InTree(p, dir) :: entries[p]
  }

  lemma RemoveTreeUpdateInside(entries: map<Path, Entry>, dir: Path, x: Path, v: Entry)
    requires InTree(x, dir)
    ensures RemoveTree(entries[x := v], dir) == RemoveTree(entries, dir)
  {
  }

  lemma RemoveTreeUpdateOutside(entries: map<Path, Entry>, dir: Path, x: Path, v: Entry)
    requires !InTree(x, dir)
    ensures RemoveTree(entries[x := v], dir) == RemoveTree(entries, dir)[x := v]
  {
  }

  /** What `imread` gives for a path: the figure saved there, or an error. */
  function ReadFrame(entries: map<Path, Entry>, p: Path, unreadable: set<Path>): (r: Result<Figure>)
    ensures r.Ok? <==> p in entries && entries[p].Png? && p !in unreadable
    ensures r.Ok? ==> entries[p] == Png(r.value)
    ensures r.Err? ==> r.error == ReadFailed(p)
  {
    if p in entries && entries[p].Png? && p !in unreadable then Ok(entries[p].figure)
    else Err(ReadFailed(p))
  }

  class FileSystem {
    var entries: map<Path, Entry>

    constructor (initial: map<Path, Entry>)
      ensures entries == initial
    {
      entries := initial;
    }

    /** `os.mkdir(p)`: fails on an existing path, or when the system refuses. */
    method Mkdir(p: Path, refused: bool) returns (err: Option<Error>)
      modifies this
      ensures p in old(entries) ==> err == Some(FileExists(p)) && entries == old(entries)
      ensures p !in old(entries) && refused ==> err == Some(MkdirFailed(p)) && entries == old(entries)
      ensures p !in old(entries) && !refused ==> err == None && entries == old(entries)[p := Directory]
    {
      if p in entries {
        return Some(FileExists(p));
      }
      if refused {
        return Some(MkdirFailed(p));
      }
      entries := entries[p := Directory];
      return None;
    }

    /** `shutil.rmtree(p)`: deletes a directory and all it holds; raises on a missing path or a file. */
    method Rmtree(p: Path) returns (err: Option<Error>)
      modifies this
      ensures p !in old(entries) ==> err == Some(FileNotFound(p)) && entries == old(entries)
      ensures p in old(entries) && !old(entries)[p].Directory? ==>
        err == Some(NotADirectory(p)) && entries == old(entries)
      ensures p in old(entries) && old(entries)[p].Directory? ==>
        err == None && entries == RemoveTree(old(entries), p)
    {
      if p !in entries {
        return Some(FileNotFound(p));
      }
      if !entries[p].Directory? {
        return Some(NotADirectory(p));
      }
      entries := RemoveTree(entries, p);
      return None;
    }

    /** `fig.savefig(p, ...)`: writes the figure as a PNG file, unless it raises. */
    method SaveFig(p: Path, fig: Figure, fails: bool) returns (err: Option<Error>)
      modifies this
      ensures fails ==> err == Some(SaveFailed(p)) && entries == old(entries)
      ensures !fails ==> err == None && entries == old(entries)[p := Png(fig)]
    {
      if fails {
        return Some(SaveFailed(p));
      }
      entries := entries[p := Png(fig)];
      return None;
    }

    /** `imageio.v2.imread(p)`: decodes a saved frame; changes nothing. */
    method ImRead(p: Path, unreadable: set<Path>) returns (r: Result<Figure>)
      ensures r.Ok? <==> p in entries && entries[p].Png? && p !in unreadable
      ensures r.Ok? ==> r.value == entries[p].figure
      ensures r.Err? ==> r.error == ReadFailed(p)
    {
      if p in entries && entries[p].Png? && p !in unreadable {
        return Ok(entries[p].figure);
      }
      return Err(ReadFailed(p));
    }

    /** `imageio.mimsave(out, frames, duration=..., loop=...)`: writes the animation, unless it raises. */
    method MimSave(out: Path, frames: seq<Figure>, durationMs: real, loop: Option<nat>, fails: bool)
      returns (err: Option<Error>)
      modifies this
      ensures fails ==> err == Some(EncodeFailed) && entries == old(entries)
      ensures !fails ==> err == None && entries == old(entries)[out := Animation(frames, durationMs, loop)]
    {
      if fails {
        return Some(EncodeFailed);
      }
      entries := entries[out := Animation(frames, durationMs, loop)];
      return None;
    }
  }
}

=== FILE: frame_store.dfy ===
/**
 * The transient frame store: the temporary directory's name, the names of the
 * frame files written into it, and the frame function that produces their
 * contents.
 */
module FrameStore {
  import opened Common
  import opened Decimal
  import opened Datasets
  import opened Files

  /** `dir_out / f'{prefix}{fp_out_base}.{randstr}'`, with `randstr = str(r)`. */
  function TmpDirPath(outDir: Path, dirPrefix: string, stem: string, r: nat): (p: Path)
    ensures |p| > |outDir| + 1 && p[..|outDir| + 1] == outDir + "/"
    ensures '/' !in dirPrefix && '/' !in stem ==> '/' !in p[|outDir| + 1..]
  {
    outDir + "/" + dirPrefix + stem + "." + NatToStr(r)
  }

  /** `str(ii).zfill(n_digits)` */
  function IndexStr(ii: nat, nDigits: nat): (s: string)
    ensures |s| == if |NatToStr(ii)| <= nDigits then nDigits else |NatToStr(ii)|
  {
    ZFill(NatToStr(ii), nDigits)
  }

  /** `f'{prefix}{idx_str}.png'` */
  function FrameName(filePrefix: string, ii: nat, nDigits: nat): (n: string)
    ensures |n| >= |filePrefix| + nDigits + 4 && |n| >= |filePrefix| + 5
  {
    filePrefix + IndexStr(ii, nDigits) + ".png"
  }

  /** `dir_tmp / fn_out_ii` */
  function FramePath(dir: Path, filePrefix: string, ii: nat, nDigits: nat): (p: Path)
    ensures |p| > |dir| + 1 && p[|dir|] == '/'
  {
    dir + "/" + FrameName(filePrefix, ii, nDigits)
  }

  /** The paths of the first `n` keyframes, in keyframe order. */
  function FramePaths(dir: Path, filePrefix: string, nDigits: nat, n: nat): (r: seq<Path>)
    ensures |r| == n
  {
    seq(n, ii requires 0 <= ii < n => FramePath(dir, filePrefix, ii, nDigits))
  }

  /** The list of frame paths grows by one path per keyframe. */
  lemma FramePathsNext(dir: Path, filePrefix: string, nDigits: nat, n: nat)
    ensures FramePaths(dir, filePrefix, nDigits, n + 1) == FramePaths(dir, filePrefix, nDigits, n) + [FramePath(dir, filePrefix, n, nDigits)]
  {
  }

  /** The caller's frame function: raises where the environment says so, otherwise draws the slices. */
  function Render(ii: nat, slices: seq<Slice>, env: Env): (r: Result<Figure>)
    ensures r.Err? <==> ii in env.renderFails
    ensures r.Err? ==> r.error == RenderFailed(ii)
    ensures r.Ok? ==> r.value.slices == slices
  {
    if ii in env.renderFails then Err(RenderFailed(ii)) else Ok(Figure(slices))
  }

  /** Keyframes `0 .. n-1` all fit in `w` digits. */
  predicate Fits(n: nat, w: nat) {
    1 <= w && n <= Pow10(w)
  }

  // ---------------------------------------------------------------------------
  // The temporary directory's name

  /** A suffix drawn from `[1000000, 9999999]` is always written with 7 digits and reads back as itself. */
  lemma RandomSuffixWidth(r: nat)
    requires 1000000 <= r <= 9999999
    ensures |NatToStr(r)| == 7
    ensures ParseDecimal(NatToStr(r)) == r
  {
    assert Pow10(6) == 1000000 && Pow10(7) == 10000000;
    DigitCount(r, 7);
    NatToStrRoundTrip(r);
  }

  /** The temporary directory's name ends in a dot and the seven digits of the suffix. */
  lemma TmpDirEndsWithSuffix(outDir: Path, dirPrefix: string, stem: string, r: nat)
    requires 1000000 <= r <= 9999999
    ensures var d := TmpDirPath(outDir, dirPrefix, stem, r);
      |d| >= 8 && d[|d| - 8] == '.' && ParseDecimal(d[|d| - 7..]) == r
  {
    RandomSuffixWidth(r);
    var d := TmpDirPath(outDir, dirPrefix, stem, r);
    assert d == (outDir + "/" + dirPrefix + stem + ".") + NatToStr(r);
    assert d[|d| - 7..] == NatToStr(r);
  }

  /** What `Path.stem` and `Path.suffix` of a file name look like. */
  predicate PathShaped(stem: string, suffix: string) {
    '/' !in stem && '/' !in suffix && (suffix == [] || (suffix[0] == '.' && '.' !in suffix[1..]))
  }

  lemma StemDotCannotMatchDirName(dirPrefix: string, stem: string, suffix: string, digits: string)
    requires |dirPrefix| >= 1
    requires stem + suffix == dirPrefix + stem + "." + digits
    ensures |suffix| > 1 && '.' in suffix[1..]
  {
    var t := dirPrefix + stem + "." + digits;
    assert t[|dirPrefix| + |stem|] == '.';
    assert (stem + suffix)[|stem| + |dirPrefix|] == suffix[|dirPrefix|];
    assert suffix[1..][|dirPrefix| - 1] == '.';
  }

  lemma FileNameHasNoSlash(outDir: Path, name: string, dirName: string)
    requires InTree(outDir + "/" + name, outDir + "/" + dirName)
    requires outDir + "/" + name != outDir + "/" + dirName
    ensures '/' in name
  {
    var p, d := outDir + "/" + name, outDir + "/" + dirName;
    assert p[|d|] == (d + "/")[|d|];
    assert p[|outDir| + 1 + |dirName|] == name[|dirName|];
  }

  /**
   * The output file `dir_out / (stem + suffix)` never lies in the temporary
   * directory, so deleting the directory never deletes the animation.
   */
  lemma OutputOutsideTmpDir(outDir: Path, dirPrefix: string, stem: string, suffix: string, r: nat)
    requires PathShaped(stem, suffix) && |dirPrefix| >= 1
    ensures !InTree(outDir + "/" + stem + suffix, TmpDirPath(outDir, dirPrefix, stem, r))
  {
    var name, dirName := stem + suffix, dirPrefix + stem + "." + NatToStr(r);
    var p, d := outDir + "/" + stem + suffix, TmpDirPath(outDir, dirPrefix, stem, r);
    assert p == outDir + "/" + name;
    assert d == outDir + "/" + dirName;
    if p == d {
      assert name == p[|outDir| + 1..] == d[|outDir| + 1..] == dirName;
      StemDotCannotMatchDirName(dirPrefix, stem, suffix, NatToStr(r));
    } else if InTree(p, d) {
      FileNameHasNoSlash(outDir, name, dirName);
    }
  }

  // ---------------------------------------------------------------------------
  // Frame names

  /** Every index below `n` is written with exactly as many digits as `n` has. */
  lemma IndexStrWidth(ii: nat, n: nat)
    requires ii < n
    ensures |IndexStr(ii, |NatToStr(n)|)| == |NatToStr(n)|
    ensures IndexStr(ii, |NatToStr(n)|) == Fixed(ii, |NatToStr(n)|)
  {
    NoWiderThan(ii, n);
    ZFillIsFixed(ii, |NatToStr(n)|);
  }

  /** An index that fits in `w` digits is zero-padded to its `w`-digit numeral. */
  lemma IndexStrFixed(ii: nat, w: nat)
    requires 1 <= w && ii < Pow10(w)
    ensures IndexStr(ii, w) == Fixed(ii, w)
  {
    var m := |NatToStr(ii)|;
    if m > 1 {
      Pow10Reflect(m - 1, w);
    }
    ZFillIsFixed(ii, w);
  }

  /** The index can be read back from its zero-padded form, whatever the width. */
  lemma IndexStrRoundTrip(ii: nat, w: nat)
    ensures ParseDecimal(IndexStr(ii, w)) == ii
  {
    var digits := NatToStr(ii);
    if |digits| <= w {
      ZFillIsFixed(ii, w);
      Pow10Monotone(|digits|, w);
      FixedRoundTrip(ii, w);
    } else {
      NatToStrRoundTrip(ii);
    }
  }

  lemma NameLess(filePrefix: string, i: nat, j: nat, w: nat)
    requires 1 <= w && i < j < Pow10(w)
    ensures LexLess(FrameName(filePrefix, i, w), FrameName(filePrefix, j, w))
  {
    IndexStrFixed(i, w);
    IndexStrFixed(j, w);
    var a, b := Fixed(i, w), Fixed(j, w);
    FixedOrder(i, j, w);
    LexLessAppend(a, b, ".png", ".png");
    LexLessPrefix(filePrefix, a + ".png", b + ".png");
    assert FrameName(filePrefix, i, w) == filePrefix + (a + ".png");
    assert FrameName(filePrefix, j, w) == filePrefix + (b + ".png");
  }

  /**
   * Sorting the frame names as strings puts them in keyframe order: with
   * `n_digits = len(str(n_keyframes))`, name `i` sorts before name `j` exactly
   * when `i < j`, across every 9/10 and 99/100 boundary.
   */
  lemma FrameNameOrder(filePrefix: string, i: nat, j: nat, n: nat)
    requires i < n && j < n
    ensures LexLess(FrameName(filePrefix, i, |NatToStr(n)|), FrameName(filePrefix, j, |NatToStr(n)|)) <==> i < j
  {
    var w := |NatToStr(n)|;
    if i < j {
      NameLess(filePrefix, i, j, w);
    } else if i == j {
      LexLessIrreflexive(FrameName(filePrefix, i, w));
    } else {
      NameLess(filePrefix, j, i, w);
      LexLessAsymmetric(FrameName(filePrefix, j, w), FrameName(filePrefix, i, w));
    }
  }

  /** Nine keyframes need one digit, ten need two: the names around the boundary. */
  lemma BoundaryNames()
    ensures |NatToStr(9)| == 1 && |NatToStr(10)| == 2 && |NatToStr(100)| == 3
    ensures FrameName("xanim_tmpfile_", 9, 2) == "xanim_tmpfile_09.png"
    ensures FrameName("xanim_tmpfile_", 10, 3) == "xanim_tmpfile_010.png"
  {
    assert NatToStr(10) == NatToStr(1) + "0";
    assert NatToStr(100) == NatToStr(10) + "0";
  }

  // ---------------------------------------------------------------------------
  // Frame paths

  /** The zero-padded index consists of digits only: padding adds zeros, never a sign. */
  lemma IndexStrDigits(ii: nat, nDigits: nat)
    ensures forall i :: 0 <= i < |IndexStr(ii, nDigits)| ==> IsDigit(IndexStr(ii, nDigits)[i])
  {
    var digits := NatToStr(ii);
    var s := IndexStr(ii, nDigits);
    if |digits| < nDigits {
      assert IsDigit(digits[0]);
      var pad := nDigits - |digits|;
      forall i | 0 <= i < |s|
        ensures IsDigit(s[i])
      {
        if i >= pad {
          assert s[i] == s[pad..][i - pad] == digits[i - pad];
        }
      }
    }
  }

  /**
   * A frame's file name is the prefix, then the index's digits, then `.png`,
   * and the keyframe index can be read back from those digits.
   */
  lemma FrameNameRoundTrip(filePrefix: string, ii: nat, nDigits: nat)
    ensures var n := FrameName(filePrefix, ii, nDigits);
      && n[..|filePrefix|] == filePrefix && n[|n| - 4..] == ".png"
      && (forall k :: |filePrefix| <= k < |n| - 4 ==> IsDigit(n[k]))
      && ParseDecimal(n[|filePrefix|..|n| - 4]) == ii
  {
    var n := FrameName(filePrefix, ii, nDigits);
    var digits := IndexStr(ii, nDigits);
    IndexStrDigits(ii, nDigits);
    IndexStrRoundTrip(ii, nDigits);
    assert n[..|filePrefix|] == filePrefix;
    assert n[|n| - 4..] == ".png";
    assert n[|filePrefix|..|n| - 4] == digits;
    assert forall k :: |filePrefix| <= k < |n| - 4 ==> n[k] == digits[k - |filePrefix|];
  }

  /** Every frame is written strictly inside the temporary directory. */
  lemma FramePathInside(dir: Path, filePrefix: string, ii: nat, w: nat)
    ensures InTree(FramePath(dir, filePrefix, ii, w), dir)
    ensures FramePath(dir, filePrefix, ii, w) != dir
  {
    var p := FramePath(dir, filePrefix, ii, w);
    assert p == (dir + "/") + FrameName(filePrefix, ii, w);
    assert p[..|dir| + 1] == dir + "/";
  }
}

=== FILE: keyframes.dfy ===
/**
 * Keyframe planning: how many keyframes a run renders and which index along
 * the animation dimension each one selects.
 */
module Keyframes {
  import opened Common

  /**
   * `np.ceil(n_anim / index_stride)`, the number of keyframes. A zero stride
   * raises ZeroDivisionError; a negative stride gives a count of zero or less,
   * for which `range` yields no keyframe at all.
   */
  function KeyframeCount(nAnim: nat, stride: int): (r: Result<int>)
    ensures r.Err? <==> stride == 0
    ensures r.Err? ==> r.error == ZeroDivision
    ensures stride > 0 ==> r.value >= 0 && (r.value == 0 <==> nAnim == 0)
    ensures stride < 0 ==> r.value <= 0
  {
    if stride == 0 then Err(ZeroDivision)
    else if stride > 0 then Ok((nAnim + stride - 1) / stride)
    else Ok(-(nAnim / -stride))
  }

  /** The number of keyframes `range(n_keyframes)` runs through. */
  function Iterations(nKeyframes: int): (r: nat)
    ensures r == 0 <==> nKeyframes <= 0
    ensures nKeyframes > 0 ==> r == nKeyframes
  {
    if nKeyframes > 0 then nKeyframes else 0
  }

  /** Keyframe `ii` selects index `ii * index_stride` along the animation dimension. */
  function KeyframeIndex(ii: nat, stride: int): (r: int)
    ensures ii == 0 ==> r == 0
    ensures stride >= 1 ==> r >= 0 && r % stride == 0 && r / stride == ii
  {
    if stride >= 1 then MultipleOf(ii, stride); ii * stride else ii * stride
  }

  /** The indices the keyframes of a run select, in keyframe order. */
  function KeyframeIndices(count: nat, stride: int): (r: seq<int>)
    ensures |r| == count
  {
    seq(count, ii requires 0 <= ii < count => KeyframeIndex(ii, stride))
  }

  lemma MulMonotone(a: int, b: int, s: nat)
    requires a <= b
    ensures a * s <= b * s
  {
  }

  /**
   * For a positive stride the count is the ceiling of `n_anim / index_stride`:
   * the least `c` with `c * index_stride >= n_anim`.
   */
  lemma CountIsCeiling(nAnim: nat, stride: int)
    requires stride >= 1
    ensures KeyframeCount(nAnim, stride).Ok?
    ensures var c := KeyframeCount(nAnim, stride).value;
      0 <= c && nAnim <= c * stride && (c - 1) * stride < nAnim
  {
    var m := nAnim + stride - 1;
    var c, rem := m / stride, m % stride;
    assert m == c * stride + rem && 0 <= rem < stride;
    assert (c - 1) * stride == c * stride - stride;
  }

  /**
   * Keyframe `ii` exists exactly when the index it selects lies inside the
   * animation dimension.
   */
  lemma KeyframeInRange(nAnim: nat, stride: int, ii: nat)
    requires stride >= 1
    ensures ii < KeyframeCount(nAnim, stride).value <==> KeyframeIndex(ii, stride) < nAnim
  {
    CountIsCeiling(nAnim, stride);
    var c := KeyframeCount(nAnim, stride).value;
    if ii < c {
      MulMonotone(ii, c - 1, stride);
    } else {
      MulMonotone(c, ii, stride);
    }
  }

  /** `a * s` is a multiple of `s`, and dividing it by `s` gives back `a`. */
  lemma MultipleOf(a: nat, s: nat)
    requires s >= 1
    ensures (a * s) % s == 0 && (a * s) / s == a
  {
    var q, r := (a * s) / s, (a * s) % s;
    assert a * s == q * s + r && 0 <= r < s;
    assert (a - q) * s == r;
    if a - q >= 1 {
      MulMonotone(1, a - q, s);
    } else if a - q <= -1 {
      MulMonotone(a - q, -1, s);
    }
  }

  lemma IndicesIncrease(stride: int, a: nat, b: nat)
    requires stride >= 1 && a < b
    ensures KeyframeIndex(a, stride) < KeyframeIndex(b, stride)
  {
    MulMonotone(a + 1, b, stride);
  }

  /**
   * The keyframes select the multiples of the stride below `n_anim`: each once,
   * in increasing order, and no other index.
   */
  lemma IndicesAreTheMultiples(nAnim: nat, stride: int)
    requires stride >= 1
    ensures var c := KeyframeCount(nAnim, stride).value;
      var r := KeyframeIndices(c, stride);
      && (forall a, b :: 0 <= a < b < c ==> r[a] < r[b])
      && (forall a :: 0 <= a < c ==> 0 <= r[a] < nAnim && r[a] % stride == 0)
      && (forall m :: 0 <= m < nAnim && m % stride == 0 ==> m in r)
  {
    var c := KeyframeCount(nAnim, stride).value;
    var r := KeyframeIndices(c, stride);
    forall a, b | 0 <= a < b < c
      ensures r[a] < r[b]
    {
      IndicesIncrease(stride, a, b);
    }
    forall a | 0 <= a < c
      ensures 0 <= r[a] < nAnim && r[a] % stride == 0
    {
      KeyframeInRange(nAnim, stride, a);
      MultipleOf(a, stride);
    }
    forall m | 0 <= m < nAnim && m % stride == 0
      ensures m in r
    {
      var q := m / stride;
      assert q * stride == m;
      KeyframeInRange(nAnim, stride, q);
      assert r[q] == m;
    }
  }

  /** A negative stride renders no keyframe. */
  lemma NegativeStrideRendersNothing(nAnim: nat, stride: int)
    requires stride < 0
    ensures KeyframeCount(nAnim, stride).Ok?
    ensures Iterations(KeyframeCount(nAnim, stride).value) == 0
  {
  }

  /** 23 steps at stride 5 give the five keyframes 0, 5, 10, 15 and 20. */
  lemma StrideFiveOverTwentyThree()
    ensures KeyframeCount(23, 5) == Ok(5)
    ensures KeyframeIndices(5, 5) == [0, 5, 10, 15, 20]
  {
  }
}

=== FILE: pipeline.dfy ===
/**
 * What the keyframe loop of both front ends leaves behind: which frame files it
 * has written when it stops, the exception it stops with, and what the
 * compiler then makes of a complete set of frames.
 */
module Pipeline {
  import opened Common
  import opened Decimal
  import opened Keyframes
  import opened Files
  import opened FrameStore
  import opened Compile

  /** How many keyframes a run renders and how many digits their file names carry. */
  datatype Schedule = Schedule(count: nat, nDigits: nat)

  /**
   * `n_keyframes = ceil(n_anim / index_stride)`, rendered `range(n_keyframes)`
   * times, and `n_digits = len(str(n_keyframes))`.
   */
  function ScheduleFor(nAnim: nat, stride: int): (r: Result<Schedule>)
    ensures stride == 0 <==> r == Err(ZeroDivision)
    ensures r.Ok? ==> Fits(r.value.count, r.value.nDigits)
    ensures r.Ok? && stride >= 1 ==>
      nAnim <= r.value.count * stride && (r.value.count - 1) * stride < nAnim
    ensures r.Ok? && stride < 0 ==> r.value.count == 0
  {
    match KeyframeCount(nAnim, stride)
    case Err(e) => Err(e)
    case Ok(nKeyframes) =>
      DigitsFit(nKeyframes);
      if stride >= 1 then CountIsCeiling(nAnim, stride); Ok(Schedule(Iterations(nKeyframes), |IntToStr(nKeyframes)|))
      else Ok(Schedule(Iterations(nKeyframes), |IntToStr(nKeyframes)|))
  }

  /** Every keyframe `range(n)` visits fits in the `len(str(n))` digits of its name. */
  lemma DigitsFit(nKeyframes: int)
    ensures Fits(Iterations(nKeyframes), |IntToStr(nKeyframes)|)
  {
  }

  /**
   * 23 steps at stride 5 give five keyframes named with one digit; 10 and 100
   * keyframes at stride 1 are named with two and three digits.
   */
  lemma ScheduleExamples()
    ensures ScheduleFor(23, 5) == Ok(Schedule(5, 1))
    ensures ScheduleFor(10, 1) == Ok(Schedule(10, 2))
    ensures ScheduleFor(100, 1) == Ok(Schedule(100, 3))
  {
    assert KeyframeCount(23, 5) == Ok(5);
    assert NatToStr(10) == NatToStr(1) + "0";
    assert NatToStr(100) == NatToStr(10) + "0";
  }

  // ---------------------------------------------------------------------------
  // Where the loop stops

  /**
   * The first keyframe from `from` on at which the frame function or `savefig`
   * raises, or `|figs|` when every keyframe is rendered and saved.
   */
  function FirstFailureFrom(figs: seq<Result<Figure>>, saveFails: set<nat>, from: nat): (k: nat)
    requires from <= |figs|
    ensures from <= k <= |figs|
    ensures forall j :: from <= j < k ==> figs[j].Ok? && j !in saveFails
    ensures k < |figs| ==> figs[k].Err? || k in saveFails
    decreases |figs| - from
  {
    if from == |figs| then from
    else if figs[from].Err? || from in saveFails then from
    else FirstFailureFrom(figs, saveFails, from + 1)
  }

  function FirstFailure(figs: seq<Result<Figure>>, saveFails: set<nat>): (k: nat)
    ensures k <= |figs|
    ensures forall j :: 0 <= j < k ==> figs[j].Ok? && j !in saveFails
    ensures k < |figs| ==> figs[k].Err? || k in saveFails
  {
    FirstFailureFrom(figs, saveFails, 0)
  }

  /** With no failing keyframe the loop runs to the end. */
  lemma FirstFailureNone(figs: seq<Result<Figure>>, saveFails: set<nat>)
    requires forall j :: 0 <= j < |figs| ==> figs[j].Ok? && j !in saveFails
    ensures FirstFailure(figs, saveFails) == |figs|
  {
  }

  /** The least failing keyframe is the only one that can explain a stop. */
  lemma FirstFailureIsLeast(figs: seq<Result<Figure>>, saveFails: set<nat>, k: nat)
    requires k < |figs| && (figs[k].Err? || k in saveFails)
    requires forall j :: 0 <= j < k ==> figs[j].Ok? && j !in saveFails
    ensures FirstFailure(figs, saveFails) == k
  {
  }

  /** The exception keyframe `k` stops the loop with: the frame function's own, or `savefig`'s. */
  function FailureAt(figs: seq<Result<Figure>>, saveFails: set<nat>, dir: Path, prefix: string, w: nat, k: nat): (r: Error)
    requires k < |figs|
    ensures figs[k].Err? ==> r == figs[k].error
    ensures figs[k].Ok? ==> r == SaveFailed(FramePath(dir, prefix, k, w))
  {
    if figs[k].Err? then figs[k].error else SaveFailed(FramePath(dir, prefix, k, w))
  }

  /** The entries after the first `k` keyframes have each been saved under their frame name. */
  function Persisted(entries: map<Path, Entry>, dir: Path, prefix: string, w: nat, figs: seq<Result<Figure>>, k: nat)
    : (r: map<Path, Entry>)
    requires k <= |figs| && forall j :: 0 <= j < k ==> figs[j].Ok?
    ensures entries.Keys <= r.Keys
    decreases k
  {
    if k == 0 then entries
    else Persisted(entries, dir, prefix, w, figs, k - 1)[FramePath(dir, prefix, k - 1, w) := Png(figs[k - 1].value)]
  }

  /** One more saved keyframe adds its frame to the entries. */
  lemma PersistedNext(entries: map<Path, Entry>, dir: Path, prefix: string, w: nat, figs: seq<Result<Figure>>, k: nat)
    requires k < |figs| && forall j :: 0 <= j <= k ==> figs[j].Ok?
    ensures Persisted(entries, dir, prefix, w, figs, k + 1)
      == Persisted(entries, dir, prefix, w, figs, k)[FramePath(dir, prefix, k, w) := Png(figs[k].value)]
  {
  }

  /** Two keyframes whose indices fit in `w` digits are saved to two different files. */
  lemma FramePathsDistinct(dir: Path, prefix: string, i: nat, j: nat, w: nat)
    requires i != j
    ensures FramePath(dir, prefix, i, w) != FramePath(dir, prefix, j, w)
  {
    FrameNameRoundTrip(prefix, i, w);
    FrameNameRoundTrip(prefix, j, w);
    var p, q := FramePath(dir, prefix, i, w), FramePath(dir, prefix, j, w);
    assert p[|dir| + 1..] == FrameName(prefix, i, w);
    assert q[|dir| + 1..] == FrameName(prefix, j, w);
  }

  /** Frame `j` is on disk, holding what keyframe `j` rendered: no later frame overwrote it. */
  lemma {:induction false} PersistedAt(entries: map<Path, Entry>, dir: Path, prefix: string, w: nat, figs: seq<Result<Figure>>, k: nat, j: nat)
    requires k <= |figs| && forall i :: 0 <= i < k ==> figs[i].Ok?
    requires j < k
    ensures var e := Persisted(entries, dir, prefix, w, figs, k);
      FramePath(dir, prefix, j, w) in e && e[FramePath(dir, prefix, j, w)] == Png(figs[j].value)
    decreases k
  {
    if j < k - 1 {
      PersistedAt(entries, dir, prefix, w, figs, k - 1, j);
      FramePathsDistinct(dir, prefix, j, k - 1, w);
    }
  }

  /** The loop touches nothing outside the temporary directory, nor the directory entry itself. */
  lemma {:induction false} PersistedOutside(entries: map<Path, Entry>, dir: Path, prefix: string, w: nat, figs: seq<Result<Figure>>, k: nat, p: Path)
    requires k <= |figs| && forall i :: 0 <= i < k ==> figs[i].Ok?
    requires p == dir || !InTree(p, dir)
    ensures var e := Persisted(entries, dir, prefix, w, figs, k);
      (p in e <==> p in entries) && (p in entries ==> e[p] == entries[p])
    decreases k
  {
    if k > 0 {
      PersistedOutside(entries, dir, prefix, w, figs, k - 1, p);
      FramePathInside(dir, prefix, k - 1, w);
    }
  }

  /** Removing the temporary directory removes every frame the loop wrote. */
  lemma {:induction false} PersistedRemoved(entries: map<Path, Entry>, dir: Path, prefix: string, w: nat, figs: seq<Result<Figure>>, k: nat)
    requires k <= |figs| && forall i :: 0 <= i < k ==> figs[i].Ok?
    ensures RemoveTree(Persisted(entries, dir, prefix, w, figs, k), dir) == RemoveTree(entries, dir)
    decreases k
  {
    if k > 0 {
      PersistedRemoved(entries, dir, prefix, w, figs, k - 1);
      FramePathInside(dir, prefix, k - 1, w);
      RemoveTreeUpdateInside(Persisted(entries, dir, prefix, w, figs, k - 1), dir,
        FramePath(dir, prefix, k - 1, w), Png(figs[k - 1].value));
    }
  }

  // ---------------------------------------------------------------------------
  // What the compiler makes of the frames

  /** The rendered figures, in keyframe order. */
  function Values(figs: seq<Result<Figure>>): (r: seq<Figure>)
    requires forall j :: 0 <= j < |figs| ==> figs[j].Ok?
    ensures |r| == |figs| && forall j :: 0 <= j < |figs| ==> r[j] == figs[j].value
  {
    seq(|figs|, j requires 0 <= j < |figs| => figs[j].value)
  }

  /** The first path from `from` on that lies in `u`, or `|paths|`. */
  function FirstIn(paths: seq<Path>, u: set<Path>, from: nat): (k: nat)
    requires from <= |paths|
    ensures from <= k <= |paths|
    ensures forall j :: from <= j < k ==> paths[j] !in u
    ensures k < |paths| ==> paths[k] in u
    decreases |paths| - from
  {
    if from == |paths| then from
    else if paths[from] in u then from
    else FirstIn(paths, u, from + 1)
  }

  /**
   * The outcome of the loop and the compiler together, stated without the file
   * system: the first render or save failure, else the first frame that cannot
   * be read back, else the rate conversion, else the encoder; an animation of
   * every rendered figure in keyframe order when none of them raises.
   */
  function Produced(figs: seq<Result<Figure>>, dir: Path, prefix: string, w: nat, fps: real, loop: Option<nat>, env: Env)
    : (r: Result<Entry>)
    ensures FirstFailure(figs, env.saveFails) < |figs| ==> r.Err?
    ensures fps == 0.0 || env.encodeFails ==> r.Err?
    ensures r.Ok? ==>
      (&& r.value.Animation? && |r.value.frames| == |figs| && r.value.loop == loop
       && r.value.durationMs * fps == 1000.0)
  {
    var k := FirstFailure(figs, env.saveFails);
    if k < |figs| then Err(FailureAt(figs, env.saveFails, dir, prefix, w, k))
    else
      var paths := FramePaths(dir, prefix, w, |figs|);
      var u := FirstIn(paths, env.unreadable, 0);
      if u < |paths| then Err(ReadFailed(paths[u]))
      else if fps == 0.0 then Err(ZeroDivision)
      else if env.encodeFails then Err(EncodeFailed)
      else Ms2FpsInverse(fps); Ok(Animation(Values(figs), 1000.0 / fps, loop))
  }

  /**
   * A run yields an animation exactly when no keyframe fails to render or save,
   * every frame reads back, the rate is non-zero and the encoder succeeds; the
   * animation then shows every keyframe's figure once, in keyframe order, each
   * for `1000 / fps` milliseconds.
   */
  lemma ProducedAnimation(figs: seq<Result<Figure>>, dir: Path, prefix: string, w: nat, fps: real, loop: Option<nat>, env: Env)
    ensures var r := Produced(figs, dir, prefix, w, fps, loop, env);
      r.Ok? <==>
        (forall j :: 0 <= j < |figs| ==>
          (figs[j].Ok? && j !in env.saveFails && FramePath(dir, prefix, j, w) !in env.unreadable))
        && fps != 0.0 && !env.encodeFails
    ensures var r := Produced(figs, dir, prefix, w, fps, loop, env);
      r.Ok? ==>
        (&& r.value.Animation? && |r.value.frames| == |figs| && r.value.loop == loop
         && (forall j :: 0 <= j < |figs| ==> figs[j] == Ok(r.value.frames[j]))
         && r.value.durationMs * fps == 1000.0)
  {
    var r := Produced(figs, dir, prefix, w, fps, loop, env);
    var k := FirstFailure(figs, env.saveFails);
    if k == |figs| {
      var paths := FramePaths(dir, prefix, w, |figs|);
      var u := FirstIn(paths, env.unreadable, 0);
      assert forall j :: 0 <= j < |figs| ==> paths[j] == FramePath(dir, prefix, j, w);
      if u < |paths| {
        assert FramePath(dir, prefix, u, w) in env.unreadable;
      }
      if fps != 0.0 {
        Ms2FpsInverse(fps);
      }
    }
  }

  /** Once every frame is on disk, a frame reads back exactly when the decoder accepts its path. */
  lemma {:induction false} FirstUnreadableIsFirstIn(entries: map<Path, Entry>, dir: Path, prefix: string, w: nat,
                                                    figs: seq<Result<Figure>>, u: set<Path>, from: nat)
    requires forall j :: 0 <= j < |figs| ==> figs[j].Ok?
    requires from <= |figs|
    ensures var e := Persisted(entries, dir, prefix, w, figs, |figs|);
      var paths := FramePaths(dir, prefix, w, |figs|);
      FirstUnreadable(e, paths, u, from) == FirstIn(paths, u, from)
    decreases |figs| - from
  {
    if from < |figs| {
      PersistedAt(entries, dir, prefix, w, figs, |figs|, from);
      FirstUnreadableIsFirstIn(entries, dir, prefix, w, figs, u, from + 1);
    }
  }

  /**
   * Compiling the list of frame paths after a complete loop gives the outcome
   * `Produced` states: the compiler sees exactly the frames the loop wrote.
   */
  lemma CompiledPersisted(entries: map<Path, Entry>, dir: Path, prefix: string, w: nat,
                          figs: seq<Result<Figure>>, fps: real, loop: Option<nat>, env: Env)
    requires FirstFailure(figs, env.saveFails) == |figs|
    ensures Compiled(Persisted(entries, dir, prefix, w, figs, |figs|), FramePaths(dir, prefix, w, |figs|), fps, loop, env)
      == Produced(figs, dir, prefix, w, fps, loop, env)
  {
    var e := Persisted(entries, dir, prefix, w, figs, |figs|);
    var paths := FramePaths(dir, prefix, w, |figs|);
    FirstUnreadableIsFirstIn(entries, dir, prefix, w, figs, env.unreadable, 0);
    var d := DecodeFrom(e, paths, env.unreadable, 0);
    if d.Ok? {
      forall j | 0 <= j < |figs|
        ensures d.value[j] == figs[j].value
      {
        PersistedAt(entries, dir, prefix, w, figs, |figs|, j);
        assert paths[j] == FramePath(dir, prefix, j, w);
      }
      assert d.value == Values(figs);
    }
  }
}

=== FILE: xanimate.dfy ===
/**
 * The xAnimate front end: `make_animation` names and creates a temporary
 * directory next to the output file and runs `_try_make_animation` inside a
 * bare `try`, whose `except` removes the directory and swallows the exception.
 */
module XAnimate {
  import opened Common
  import opened Decimal
  import opened Keyframes
  import opened Datasets
  import opened Files
  import opened FrameStore
  import opened Compile
  import opened Pipeline

  const DirPrefix: string := "xanim_tmp_"
  const FilePrefix: string := "xanim_tmpfile_"

  /**
   * The checks and arithmetic `_try_make_animation` does before its loop: the
   * wrapped input must pass `check_data`, and the stride must divide.
   */
  function MakePlan(input: Input, dim: string, stride: int): (r: Result<Schedule>)
    ensures CheckVerdict(AsList(input), dim).Some? ==> r == Err(CheckVerdict(AsList(input), dim).value)
    ensures r.Ok? ==>
      (&& |AsList(input)| > 0 && HasDim(AsList(input)[0], dim) && Consistent(AsList(input), dim)
       && r == ScheduleFor(AsList(input)[0].sizes[dim], stride))
  {
    var data := AsList(input);
    match CheckVerdict(data, dim)
    case Some(e) => Err(e)
    case None => ScheduleFor(data[0].sizes[dim], stride)
  }

  /** What the frame function returns at keyframe `ii`, given that keyframe's selection. */
  function FigureAt(data: seq<Dataset>, dim: string, stride: int, ii: nat, env: Env): (r: Result<Figure>)
    ensures r.Err? <==> ii in env.renderFails
    ensures r.Err? ==> r.error == RenderFailed(ii)
    ensures r.Ok? ==> r.value.slices == FrameSlices(data, dim, ii, stride)
  {
    Render(ii, FrameSlices(data, dim, ii, stride), env)
  }

  /** What the frame function returns at each keyframe. */
  function Figures(data: seq<Dataset>, dim: string, stride: int, count: nat, env: Env): (r: seq<Result<Figure>>)
    ensures |r| == count
  {
    seq(count, ii requires 0 <= ii < count => FigureAt(data, dim, stride, ii, env))
  }

  /** The outcome of `_try_make_animation`: the animation it writes, or the exception it raises. */
  function Outcome(input: Input, dim: string, stride: int, fps: real, loop: Option<nat>, env: Env, dirTmp: Path)
    : (r: Result<Entry>)
    ensures CheckVerdict(AsList(input), dim).Some? ==> r == Err(CheckVerdict(AsList(input), dim).value)
    ensures CheckVerdict(AsList(input), dim).None? && stride == 0 ==> r == Err(ZeroDivision)
    ensures r.Ok? ==> r.value.Animation? && r.value.loop == loop && r.value.durationMs * fps == 1000.0
  {
    match MakePlan(input, dim, stride)
    case Err(e) => Err(e)
    case Ok(p) => Produced(Figures(AsList(input), dim, stride, p.count, env), dirTmp, FilePrefix, p.nDigits, fps, loop, env)
  }

  /**
   * One pass of the keyframe loop: builds `data_ii`, calls the frame function
   * and saves its figure. The figure is saved exactly when the frame function
   * returns and `savefig` succeeds; otherwise nothing changes.
   */
  method SaveKeyframe(fs: FileSystem, dirTmp: Path, data: seq<Dataset>, dim: string, stride: int, ii: nat,
                      nDigits: nat, env: Env)
    returns (path: Path, err: Option<Error>)
    modifies fs
    ensures var fig := FigureAt(data, dim, stride, ii, env);
      && path == FramePath(dirTmp, FilePrefix, ii, nDigits)
      && (fig.Err? ==> err == Some(fig.error) && fs.entries == old(fs.entries))
      && (fig.Ok? && ii in env.saveFails ==> err == Some(SaveFailed(path)) && fs.entries == old(fs.entries))
      && (fig.Ok? && ii !in env.saveFails ==> err == None && fs.entries == old(fs.entries)[path := Png(fig.value)])
  {
    path := FramePath(dirTmp, FilePrefix, ii, nDigits);
    var dataIi := SelectKeyframe(data, dim, ii, stride);
    var fig := Render(ii, dataIi, env);
    if fig.Err? {
      return path, Some(fig.error);
    }
    err := fs.SaveFig(path, fig.value, ii in env.saveFails);
  }

  /**
   * The keyframe loop of `_try_make_animation`: selects each keyframe's data,
   * calls the frame function, saves the figure under its zero-padded name and
   * appends the path to `fp_out_list`, stopping at the first exception.
   */
  method RenderFrames(fs: FileSystem, dirTmp: Path, data: seq<Dataset>, dim: string, stride: int, count: nat, nDigits: nat, env: Env)
    returns (fpOutList: seq<Path>, err: Option<Error>)
    modifies fs
    ensures var figs := Figures(data, dim, stride, count, env);
      var k := FirstFailure(figs, env.saveFails);
      && fs.entries == Persisted(old(fs.entries), dirTmp, FilePrefix, nDigits, figs, k)
      && (k < count ==> err == Some(FailureAt(figs, env.saveFails, dirTmp, FilePrefix, nDigits, k)))
      && (k == count ==> err == None && fpOutList == FramePaths(dirTmp, FilePrefix, nDigits, count))
  {
    ghost var figs := Figures(data, dim, stride, count, env);
    ghost var k := FirstFailure(figs, env.saveFails);
    fpOutList := [];
    var ii := 0;
    while ii < count
      invariant 0 <= ii <= k
      invariant fpOutList == FramePaths(dirTmp, FilePrefix, nDigits, ii)
      invariant fs.entries == Persisted(old(fs.entries), dirTmp, FilePrefix, nDigits, figs, ii)
    {
      var path, saved := SaveKeyframe(fs, dirTmp, data, dim, stride, ii, nDigits, env);
      if saved.Some? {
        assert figs[ii] == FigureAt(data, dim, stride, ii, env);
        return fpOutList, saved;
      }
      PersistedNext(old(fs.entries), dirTmp, FilePrefix, nDigits, figs, ii);
      FramePathsNext(dirTmp, FilePrefix, nDigits, ii);
      fpOutList := fpOutList + [path];
      ii := ii + 1;
    }
    return fpOutList, None;
  }

  /**
   * `_try_make_animation`: checks the data, renders and saves one frame per
   * keyframe into `dirTmp`, compiles them into `fpOut` and removes `dirTmp`.
   * When it raises, the frames saved so far are still in `dirTmp`.
   */
  method TryMakeAnimation(fs: FileSystem, dirTmp: Path, input: Input, fpOut: Path, dim: string, stride: int,
                          fps: real, loop: Option<nat>, env: Env)
    returns (err: Option<Error>)
    requires dirTmp in fs.entries && fs.entries[dirTmp].Directory?
    requires !InTree(fpOut, dirTmp)
    modifies fs
    ensures MakePlan(input, dim, stride).Err? ==>
      err == Some(MakePlan(input, dim, stride).error) && fs.entries == old(fs.entries)
    ensures MakePlan(input, dim, stride).Ok? ==>
      var p := MakePlan(input, dim, stride).value;
      var figs := Figures(AsList(input), dim, stride, p.count, env);
      var o := Produced(figs, dirTmp, FilePrefix, p.nDigits, fps, loop, env);
      && (o.Ok? ==> err == None && fs.entries == RemoveTree(old(fs.entries), dirTmp)[fpOut := o.value])
      && (o.Err? ==>
            (&& err == Some(o.error)
             && fs.entries == Persisted(old(fs.entries), dirTmp, FilePrefix, p.nDigits, figs, FirstFailure(figs, env.saveFails))))
  {
    var data := AsList(input);
    var checked := CheckData(data, dim);
    if checked.Some? {
      return checked;
    }
    var nAnim := data[0].sizes[dim];
    var nKeyframes := KeyframeCount(nAnim, stride);
    if nKeyframes.Err? {
      return Some(nKeyframes.error);
    }
    var nDigits := |IntToStr(nKeyframes.value)|;
    var count := Iterations(nKeyframes.value);
    ghost var figs := Figures(data, dim, stride, count, env);
    ghost var start := fs.entries;
    assert MakePlan(input, dim, stride) == Ok(Schedule(count, nDigits));
    var fpOutList, failed := RenderFrames(fs, dirTmp, data, dim, stride, count, nDigits, env);
    if failed.Some? {
      return failed;
    }
    ghost var written := fs.entries;
    CompiledPersisted(start, dirTmp, FilePrefix, nDigits, figs, fps, loop, env);
    PersistedOutside(start, dirTmp, FilePrefix, nDigits, figs, count, dirTmp);
    var compiled := CompileImagesIntoAnimation(fs, fpOutList, fpOut, fps, loop, env);
    if compiled.Err? {
      return Some(compiled.error);
    }
    var gone := fs.Rmtree(dirTmp);
    assert gone == None;
    RemoveTreeUpdateOutside(written, dirTmp, fpOut, compiled.value);
    PersistedRemoved(start, dirTmp, FilePrefix, nDigits, figs, count);
    return None;
  }

  /** The `except` clause: `shutil.rmtree(dir_tmp)`, whose own exception escapes. */
  method Cleanup(fs: FileSystem, dirTmp: Path) returns (c: Completion)
    modifies fs
    ensures dirTmp !in old(fs.entries) ==> c == Raised(FileNotFound(dirTmp)) && fs.entries == old(fs.entries)
    ensures dirTmp in old(fs.entries) && !old(fs.entries)[dirTmp].Directory? ==>
      c == Raised(NotADirectory(dirTmp)) && fs.entries == old(fs.entries)
    ensures dirTmp in old(fs.entries) && old(fs.entries)[dirTmp].Directory? ==>
      c == Returned && fs.entries == RemoveTree(old(fs.entries), dirTmp)
  {
    var gone := fs.Rmtree(dirTmp);
    c := if gone.Some? then Raised(gone.value) else Returned;
  }

  /**
   * `make_animation`: the output is `outDir/stem+suffix` and the temporary
   * directory `outDir/xanim_tmp_<stem>.<r>`. Every exception raised after the
   * name is chosen is swallowed and the directory removed; only a failure of
   * that removal escapes. The one state a returning call leaves behind is the
   * old one minus the directory's tree, plus the animation when it was made.
   */
  method MakeAnimation(fs: FileSystem, input: Input, outDir: Path, stem: string, suffix: string, dim: string,
                       stride: int, fps: real, loop: Option<nat>, r: nat, env: Env)
    returns (c: Completion)
    requires 1000000 <= r <= 9999999
    requires PathShaped(stem, suffix)
    modifies fs
    ensures var dirTmp := TmpDirPath(outDir, DirPrefix, stem, r);
      dirTmp in old(fs.entries) && old(fs.entries)[dirTmp].Directory? ==>
        c == Returned && fs.entries == RemoveTree(old(fs.entries), dirTmp)
    ensures var dirTmp := TmpDirPath(outDir, DirPrefix, stem, r);
      dirTmp in old(fs.entries) && !old(fs.entries)[dirTmp].Directory? ==>
        c == Raised(NotADirectory(dirTmp)) && fs.entries == old(fs.entries)
    ensures var dirTmp := TmpDirPath(outDir, DirPrefix, stem, r);
      dirTmp !in old(fs.entries) && env.mkdirRefused ==>
        c == Raised(FileNotFound(dirTmp)) && fs.entries == old(fs.entries)
    ensures var dirTmp := TmpDirPath(outDir, DirPrefix, stem, r);
      var fpOut := outDir + "/" + stem + suffix;
      var o := Outcome(input, dim, stride, fps, loop, env, dirTmp);
      dirTmp !in old(fs.entries) && !env.mkdirRefused ==>
        && c == Returned
        && (o.Ok? ==> fs.entries == RemoveTree(old(fs.entries), dirTmp)[fpOut := o.value])
        && (o.Err? ==> fs.entries == RemoveTree(old(fs.entries), dirTmp))
  {
    var fpOut := outDir + "/" + stem + suffix;
    var dirTmp := TmpDirPath(outDir, DirPrefix, stem, r);
    var made := fs.Mkdir(dirTmp, env.mkdirRefused);
    if made.Some? {
      c := Cleanup(fs, dirTmp);
      return;
    }
    ghost var created := fs.entries;
    OutputOutsideTmpDir(outDir, DirPrefix, stem, suffix, r);
    RemoveTreeUpdateInside(old(fs.entries), dirTmp, dirTmp, Directory);
    var err := TryMakeAnimation(fs, dirTmp, input, fpOut, dim, stride, fps, loop, env);
    if err.Some? {
      if MakePlan(input, dim, stride).Ok? {
        var p := MakePlan(input, dim, stride).value;
        var figs := Figures(AsList(input), dim, stride, p.count, env);
        var k := FirstFailure(figs, env.saveFails);
        PersistedOutside(created, dirTmp, FilePrefix, p.nDigits, figs, k, dirTmp);
        PersistedRemoved(created, dirTmp, FilePrefix, p.nDigits, figs, k);
      }
      c := Cleanup(fs, dirTmp);
      return;
    }
    c := Returned;
  }

  // ---------------------------------------------------------------------------
  // Properties of a run

  /** A single dataset behaves exactly as a one-element list holding it. */
  lemma SingleInputIsWrapped(d: Dataset, dim: string, stride: int, fps: real, loop: Option<nat>, env: Env, dirTmp: Path)
    ensures MakePlan(Single(d), dim, stride) == MakePlan(List([d]), dim, stride)
    ensures Outcome(Single(d), dim, stride, fps, loop, env, dirTmp) == Outcome(List([d]), dim, stride, fps, loop, env, dirTmp)
  {
  }

  /**
   * Datasets that disagree on the extent of the dimension stop the run before
   * any frame is rendered, with the check's ValueError.
   */
  lemma MismatchStopsBeforeRendering(data: seq<Dataset>, dim: string, stride: int, fps: real, loop: Option<nat>, env: Env, dirTmp: Path,
                                     i: nat, j: nat)
    requires i < |data| && j < |data| && HasDim(data[0], dim) && HasDim(data[i], dim) && HasDim(data[j], dim)
    requires data[i].sizes[dim] != data[j].sizes[dim]
    ensures Outcome(List(data), dim, stride, fps, loop, env, dirTmp) == Err(DimensionMismatch)
  {
    MismatchIffTwoDisagree(data, dim);
  }

  /**
   * A successful run's animation shows one frame per keyframe — the ceiling of
   * `n_anim / index_stride` of them — and frame `j` is the frame function's
   * figure for the selection at index `j * index_stride`; each is shown for
   * `1000 / fps` milliseconds with the requested loop setting.
   */
  lemma AnimationShowsEveryKeyframe(input: Input, dim: string, stride: int, fps: real, loop: Option<nat>, env: Env, dirTmp: Path)
    requires stride >= 1
    requires Outcome(input, dim, stride, fps, loop, env, dirTmp).Ok?
    ensures var data := AsList(input);
      var a := Outcome(input, dim, stride, fps, loop, env, dirTmp).value;
      && |data| > 0 && HasDim(data[0], dim) && a.Animation?
      && KeyframeCount(data[0].sizes[dim], stride) == Ok(|a.frames|)
      && (forall j :: 0 <= j < |a.frames| ==> a.frames[j] == Figure(FrameSlices(data, dim, j, stride)))
      && a.durationMs * fps == 1000.0 && a.loop == loop
  {
    var data := AsList(input);
    var p := MakePlan(input, dim, stride).value;
    var figs := Figures(data, dim, stride, p.count, env);
    ProducedAnimation(figs, dirTmp, FilePrefix, p.nDigits, fps, loop, env);
    var a := Outcome(input, dim, stride, fps, loop, env, dirTmp).value;
    assert Ok(a) == Produced(figs, dirTmp, FilePrefix, p.nDigits, fps, loop, env);
    forall j | 0 <= j < |a.frames|
      ensures a.frames[j] == Figure(FrameSlices(data, dim, j, stride))
    {
      assert figs[j] == Render(j, FrameSlices(data, dim, j, stride), env) == Ok(a.frames[j]);
    }
  }

  /**
   * When the frame function raises at keyframe `k` and every earlier keyframe
   * is rendered and saved, the run stops with that exception after saving
   * exactly frames `0 .. k-1`; no later keyframe is rendered.
   */
  lemma RenderFailureStopsTheRun(input: Input, dim: string, stride: int, fps: real, loop: Option<nat>, env: Env,
                                 dirTmp: Path, k: nat)
    requires MakePlan(input, dim, stride).Ok? && k < MakePlan(input, dim, stride).value.count
    requires k in env.renderFails
    requires forall j :: 0 <= j < k ==> j !in env.renderFails && j !in env.saveFails
    ensures Outcome(input, dim, stride, fps, loop, env, dirTmp) == Err(RenderFailed(k))
    ensures var p := MakePlan(input, dim, stride).value;
      FirstFailure(Figures(AsList(input), dim, stride, p.count, env), env.saveFails) == k
  {
    var p := MakePlan(input, dim, stride).value;
    FirstFailureIsLeast(Figures(AsList(input), dim, stride, p.count, env), env.saveFails, k);
  }
}
